=== FILE: README.md ===
# Adaptive assessment platform — a Dafny model of its core logic

This project models the pure, sequential logic of an adaptive quiz platform.
That logic has five parts:

- **Quiz-taking page** (`QuizSession`): a state machine. Its state is the answers map, the flags map, the current index, the countdown and the `submitting` flag. Its commands are option choice, flag toggling, next, previous, nav-bar jump, the one-second timer tick, submission, and the server's success or failure reply. The `formatTime` countdown display is modelled too.
- **Action codec of the learning environment** (`QuizEnv`): the correspondence between action numbers and (chapter, difficulty) cells, and the shape of its state vector.
- **Adaptive question selection** (`QuizSelector`): a bounded loop that picks at most one unused question per distinct action, then a fill step from the rest of the question bank.
- **Backend helpers**:
  - the dashboard calculators (`Dashboard`);
  - the 18-entry performance vector (`PerformanceState`);
  - the grading and aggregation loops of quiz submission (`Submission`);
  - the quiz-history breakdown (`History`, built on the generic first-occurrence group-by in `Grouping`).
- **Chart data of the history view** (`HistoryCharts`): the accuracy pie, the per-"chapter (difficulty)" bar chart and the shortening of long axis labels.

Shared modules:

- `Maybe`: the optional value; Python `None` and JavaScript `null`/`undefined` become `None`.
- `Decimal`: integer to decimal text, `padStart`, and reading digits back.
- `Ratio`: exact quotients in place of floating-point division.
- `Store`: the database rows as plain records.

Database queries become sequences or maps of rows, and the clock becomes a `today` parameter. Three things become oracle parameters: the agent's action choice, `act(k)` for attempt `k`; `random.shuffle`, an arbitrary index permutation; and the server's reply to a submission, a `SubmitSucceeded` or `SubmitFailed` command. Effects the page causes outside itself (`alert`, the POST request, navigation) are returned as an `Effect` list instead of being performed.

Facts about the quiz page that shape the model:

- When the countdown expires, the interval calls `handleSubmit`, which applies the button's completeness check (QuizPage.jsx:45-49, 88-91). An expiry with a question unanswered only shows the alert and sends nothing.
- The page has no phase variable. Its screen follows from `loading`, `error` and `submitting`. A failed submission sets the error text and clears `submitting` (QuizPage.jsx:107-111). From then on the page renders only the error (QuizPage.jsx:122-128).
- The nav-bar's click handler stores the index without a range check (QuizPage.jsx:200, `QuizSession.JumpTakesAnyIndex`). The page renders one button per question, and `QuizSession.Enabled` records that.
- The tick that expires the countdown submits on the state it found, with one second left (QuizPage.jsx:45-49, 98). So when every answer was in while the countdown showed 1, the timer-fired request carries `duration - 1` (`QuizSession.TimerExpiryPayload`). The case of an answer arriving in the last second is on the effect-scheduling line of "## Left out".

## Model

| member | source | states |
|---|---|---|
| QuizSession.OptionChange | frontend/src/pages/QuizPage.jsx:65-67 | the chosen option becomes that question's answer, the answered set grows by that question only, every other answer and every other field is unchanged |
| QuizSession.LastWriteWins | frontend/src/pages/QuizPage.jsx:65-67 | choosing twice for one question is the same as choosing only the second time |
| QuizSession.ChoicesCommute | frontend/src/pages/QuizPage.jsx:65-67 | choices for two different questions can be made in either order |
| QuizSession.FlipFlag | frontend/src/pages/QuizPage.jsx:81-83 | the question's flag truthiness is negated (an absent entry reads as unflagged), no other question's truthiness changes, nothing else changes |
| QuizSession.FlagTwiceRestores | frontend/src/pages/QuizPage.jsx:81-83 | toggling a question twice restores every question's flag truthiness |
| QuizSession.NavigationStaysInRange | frontend/src/pages/QuizPage.jsx:69-79 | from an index on the list, next and previous stay on the list, move by exactly one away from the boundary and not at all at it, and change nothing but the index |
| QuizSession.PrevUndoesNext | frontend/src/pages/QuizPage.jsx:69-79 | previous undoes a next that moved |
| QuizSession.JumpTakesAnyIndex | frontend/src/pages/QuizPage.jsx:200 | a nav-bar jump stores the index as given, so jumping to 99 in a three-question quiz breaks the index invariant |
| QuizSession.Load | frontend/src/pages/QuizPage.jsx:25-31 | the questions arrive, loading ends and the countdown starts at the duration, answers and index untouched |
| QuizSession.LoadFail | frontend/src/pages/QuizPage.jsx:32-36 | a failed fetch shows the load error and ends loading |
| QuizSession.HandleSubmit | frontend/src/pages/QuizPage.jsx:85-99 | nothing happens while submitting; otherwise exactly one effect, which is the request (with the answers and `duration - timeLeft`) when every question is answered and the alert when one is not; questions, answers, countdown, index and error stay as they were |
| QuizSession.TimerTick | frontend/src/pages/QuizPage.jsx:43-51 | without a countdown nothing happens; otherwise the countdown becomes max(0, prev - 1); a request goes out only from a tick with at most one second left, not submitting and all answered, carrying that state's answers and time |
| QuizSession.SubmitRejected | frontend/src/pages/QuizPage.jsx:107-111 | a failed submission shows the submit error and clears submitting, leaving questions, answers and countdown alone |
| QuizSession.InitialInv | frontend/src/pages/QuizPage.jsx:12-20 | the initial state satisfies the session invariant |
| QuizSession.StepKeepsInv | frontend/src/pages/QuizPage.jsx:22-112 | every command the page can issue keeps the invariant: distinct ids, answers only for shown questions, flags only for shown questions, the index on the list, 0 <= timeLeft <= duration, nothing in flight while loading |
| QuizSession.RunKeepsInv | frontend/src/pages/QuizPage.jsx:22-112 | every sequence of such commands keeps the invariant |
| QuizSession.AllAnsweredIffEveryQuestion | frontend/src/pages/QuizPage.jsx:88 | in a reachable state, the key-count comparison holds exactly when every question has an answer |
| QuizSession.KeysCoverIffCount | frontend/src/pages/QuizPage.jsx:88 | a key set drawn from distinct question ids has as many members as there are questions exactly when it holds every question's id |
| QuizSession.TimeTakenInRange | frontend/src/pages/QuizPage.jsx:96-99 | in a reachable state `duration - timeLeft` lies in [0, duration], and is 0 before a duration is known |
| QuizSession.PostedPayloadSound | frontend/src/pages/QuizPage.jsx:94-99 | any request a command sends from a reachable state has its time in [0, duration] and an answer for every question |
| QuizSession.TicksCountDown | frontend/src/pages/QuizPage.jsx:43-51 | n ticks from a non-negative countdown t leave max(0, t - n), questions and answers untouched |
| QuizSession.TicksNeverPostIncomplete | frontend/src/pages/QuizPage.jsx:47 | while a question is unanswered, any number of ticks sends nothing, only the incomplete-answers alert, and leaves submitting as it was |
| QuizSession.TimerExpiryChecksCompleteness | frontend/src/pages/QuizPage.jsx:45-49 | an expiring tick with a question unanswered only alerts and zeroes the countdown, exactly as the button would |
| QuizSession.TimerExpiryPayload | frontend/src/pages/QuizPage.jsx:45-49 | an expiring tick with everything answered sends one request whose time is `duration - 1` and sets submitting |
| QuizSession.SubmitIgnoredWhileInFlight | frontend/src/pages/QuizPage.jsx:86 | while submitting, submit changes nothing and a tick has no effect |
| QuizSession.NoSecondPost | frontend/src/pages/QuizPage.jsx:86 | when every handler reads the current state: once submitting, no sequence of commands without a failure reply sends a second request |
| QuizSession.TicksToExpiry | frontend/src/pages/QuizPage.jsx:43-51 | with everything answered and nothing in flight, the t ticks from a countdown at t are all admissible; the first t - 1 only count down, and the last sends the answers with time `duration - 1` |
| QuizSession.RetryAfterFailure | frontend/src/pages/QuizPage.jsx:107-128 | after a failed button submission the answers are intact and the error shows; no control is left, only the timer's tick; when the countdown runs out the timer sends the answers again, with time `duration - 1` |
| QuizSession.EmptyQuizHalts | frontend/src/pages/QuizPage.jsx:130-164 | once a quiz with no questions arrives, no command is enabled: no control, no timer tick and no reply |
| QuizSession.EachRequestOneReply | frontend/src/pages/QuizPage.jsx:100-111 | along every admissible run, the requests sent plus the one in flight at the start equal the replies received plus the one in flight at the end, so each reply answers a request and none is answered twice |
| QuizSession.NothingAfterTimerFailure | frontend/src/pages/QuizPage.jsx:107-128 | after the timer's request fails, the countdown is at zero so the interval has stopped, and the error screen has no controls: no command is possible any more, so the answers are never sent again |
| QuizSession.ThreeQuestionsFiveSeconds | frontend/src/pages/QuizPage.jsx:43-92 | three questions, one answered, five seconds: six ticks reach zero and send nothing |
| QuizSession.FormatTimeReadsBack | frontend/src/pages/QuizPage.jsx:58-63 | for 0 <= s < 6000 the text is five characters "MM:SS" whose digit groups read back as minutes and seconds with 60·MM + SS = s and SS < 60 |
| QuizSession.FormatTimeLong | frontend/src/pages/QuizPage.jsx:58-63 | from 6000 seconds on the text is longer than five characters |
| QuizSession.FormatTimeNegative | frontend/src/pages/QuizPage.jsx:58-63 | a negative count shows both parts signed, because `%` keeps the sign of the dividend: -5 shows "-1:-5" |
| Decimal.NatToStringRoundTrip | frontend/src/pages/QuizPage.jsx:62 | reading back the decimal text of a number gives the number |
| Decimal.PadZerosValue | frontend/src/pages/QuizPage.jsx:62 | padding with zeros keeps a digit string's value |
| Decimal.PadStart | frontend/src/pages/QuizPage.jsx:62 | the padded text has the larger of the two lengths, ends with the original text and is filled in front |
| QuizEnv.ActionSpaceIsGrid | quiz_env.py:4-6 | an action is below the action space exactly when it decodes to a chapter of the environment, and every cell encodes into range |
| QuizEnv.DecodeAction | quiz_env.py:23-26 | the difficulty is a known label, the action lies in its chapter's block of three, and actions 0..17 decode to chapters 1..6 |
| QuizEnv.ParseDifficulty | quiz_env.py:29-30 | the label table accepts exactly the three labels and inverts the naming |
| QuizEnv.EncodeAction | quiz_env.py:28-30 | encoding succeeds exactly for a known label and lands in the chapter's block |
| QuizEnv.EncodeDecode | quiz_env.py:23-30 | encoding a decoded action gives the action back, for every integer |
| QuizEnv.DecodeEncode | quiz_env.py:23-30 | decoding an encoded (chapter, known label) pair gives the pair back |
| QuizEnv.EncodeInjective | quiz_env.py:28-30 | distinct cells get distinct actions |
| QuizEnv.ChapterBlock | quiz_env.py:28-30 | a chapter's easy, medium and hard actions are consecutive |
| QuizEnv.Denominator | quiz_env.py:14 | a chapter's total is never 0, since an empty total becomes 1 |
| QuizEnv.GetState | quiz_env.py:9-21 | 3·n entries, and slot (c, d) holds difficulty d's share of chapter c, with a missing chapter counting as all zeros |
| QuizEnv.StateEntryBounds | quiz_env.py:12-19 | a missing chapter contributes zeros, and non-negative counts give shares in [0, 1] |
| QuizEnv.SharesSumToOne | quiz_env.py:14-19 | a chapter with a positive total has shares over one denominator that add up to it |
| QuizSelector.PermuteSameMembers | quiz_selector.py:40 | a shuffle keeps exactly the same questions and keeps keys distinct |
| QuizSelector.Matching | quiz_selector.py:39 | the cell query returns exactly the bank questions of that chapter and difficulty |
| QuizSelector.FirstUnused | quiz_selector.py:41-45 | the scan finds an unused question of the list, or reports that all are used |
| QuizSelector.Pick | quiz_selector.py:37-45 | a pick is an unused bank question of the decoded cell, and nothing is picked exactly when every question of that cell is used |
| QuizSelector.Unused | quiz_selector.py:49 | the remaining list holds exactly the questions whose key is unused |
| QuizSelector.UnusedLength | quiz_selector.py:49 | the remaining list is key-distinct and as long as the bank minus the used keys that occur in it |
| QuizSelector.SelectedStep | quiz_selector.py:33-45 | picking an unused question with a newly tried action keeps the loop's record: distinct keys, bank membership, one distinct action per pick decoding to its cell |
| QuizSelector.SelectionLoop | quiz_selector.py:19-45 | at most 100 iterations, and all of them when short; at most the requested number of key-distinct bank questions; each picked by a distinct action decoding to its cell; in targeted mode at most one, picked by the encoded target, otherwise each picked by the agent's answer in one of the iterations run; a KeyError exactly for an unknown target label |
| QuizSelector.TopUp | quiz_selector.py:47-51 | the fill keeps the picked questions first, stays key-distinct and within the bank, never exceeds the requested number, and reaches it when the bank is large enough |
| QuizSelector.GenerateAdaptiveQuiz | quiz_selector.py:10-53 | the whole selection: raises exactly for a targeted unknown label, else key-distinct bank questions, at most the requested number and exactly that many when the bank holds enough; the loop's picks come first, one per distinct action; when targeted at most one, from the target chapter and difficulty, otherwise each from the cell of one of the agent's answers |
| Dashboard.CalculateStreak | app.py:166-180 | the streak is 1 exactly when the latest attempt is from today and 0 otherwise |
| Dashboard.XpLevel | app.py:185-189 | Beginner up to 100, Intermediate above 100 up to 300, Advanced above 300 |
| Dashboard.XpLevelMonotone | app.py:185-189 | more XP never gives a lower level |
| Dashboard.TimeSpent | app.py:206-209 | "H hrs M min" where 60·H + M is the whole minutes of the total and M < 60 |
| Dashboard.TimeSpentCoversTotal | app.py:206-209 | for a non-negative total, H hours and M minutes cover it to within one minute |
| Dashboard.AdaptiveLevel | app.py:211-220 | Advanced iff hard beats both, Intermediate iff medium beats easy and is not beaten by hard, Beginner iff easy is at least both |
| Dashboard.FirstRowFor | app.py:226 | a row of the chapter with no earlier row of that chapter before it, or none exactly when the chapter has no row |
| Dashboard.SubjectCard | app.py:226-236 | completion is 10 per correct answer capped at 100, non-negative for non-negative counts, and the button reads "Continue" exactly when the count is non-zero |
| Dashboard.SubjectStats | app.py:222-237 | one card per chapter, in order |
| Ratio.Normalized | app.py:311 | the quotient is correct/total for a positive total and 0 otherwise |
| PerformanceState.ScoresUpTo | app.py:306-312 | 3·n entries, and slot (c, d) holds cell (c, d)'s quotient |
| PerformanceState.UserPerformanceState | app.py:287-314 | a KeyError exactly when a row's chapter is outside 1..6; otherwise 18 entries in chapter-major order, each its cell's summed correct over summed total |
| PerformanceState.CellScoreBounds | app.py:309-311 | an entry is 0 when its total is 0 and lies in [0, 1] when rows are consistent |
| PerformanceState.SumsOrdered | app.py:297-304 | consistent rows sum to a correct count between 0 and the total |
| Submission.AggregateAnswers | app.py:337-360 | a KeyError exactly when a correct answer's question has an unknown label; otherwise the per-chapter table covers exactly the chapters answered, with the correct count per difficulty and the answer count per (chapter, difficulty) |
| Submission.StepKeepsAggregated | app.py:337-360 | one more answer keeps the loop's tables equal to the counts over the answers seen |
| Submission.UntouchedIsEmpty | app.py:352-360 | a chapter with no answered question has no answers and no correct answers in any bucket |
| Submission.CorrectWithinTotal | app.py:352-360 | in every bucket the correct count is at most the answer count |
| Submission.SubmitPerformance | app.py:364-381 | one row per answered chapter; each bucket's total is its number of answers, and its correct count is its number of correct answers, between 0 and the total |
| Submission.CorrectCount | app.py:328 | the correct count is at most the number of answers, and equals it only when every answer is correct |
| Submission.CorrectSumAsWritten | app.py:328 | the in-order sum fails exactly when some answered question does not exist, and otherwise counts the correct answers |
| Submission.ScoreAsWritten | app.py:327-329 | grading fails exactly when some answered question does not exist, else correct over total |
| Submission.ScoreAbortsOnMissingQuestion | app.py:328 | an answer to a missing question makes grading fail, although the aggregation loop skips it |
| Submission.Score | app.py:327-329 | the grading with missing questions counted as wrong: never fails, lies in [0, 1], and agrees with the grading as written whenever that succeeds |
| Grouping.Group | app.py:449-458 | one tally per key with no duplicates, the same keys as the input, per-key sums of the input, totals preserved |
| Grouping.GroupFirstOccurrenceOrder | app.py:449-458 | keys come out in the order of their first occurrence in the input |
| History.AsTally | app.py:451-458 | a response counts once, as correct exactly when it is correct, under its (chapter, difficulty) key; both counts are non-negative and add up to 1 |
| History.TalliesCount | app.py:451-458 | the per-key and total counts of the responses' tallies are the reference counts over the responses |
| History.Breakdown | app.py:449-458 | one entry per (chapter, difficulty) pair that occurs, in first-occurrence order, each counting its correct and incorrect responses, totals summing to the responses |
| History.EntriesTotals | app.py:464-473 | the totals accumulated over the entries are the breakdown's totals |
| History.Summarize | app.py:460-482 | correct is the number of correct responses, total = correct + incorrect = the number of responses, and both sums agree with the chapter entries |
| History.SummaryEntries | app.py:464-470 | the chapter entries are the breakdown's pairs with their counts, in order |
| History.Existing | app.py:437-440 | no more attempts than stored, each with an existing quiz |
| History.KeptIndices | app.py:436-440 | strictly increasing positions, each of an attempt whose quiz exists, covering every such attempt |
| History.ExistingInOrder | app.py:436-440 | the kept attempts are the attempts at those positions, in order: an order-preserving selection of exactly the attempts whose quiz exists |
| History.ExistingMembers | app.py:437-440 | every kept attempt is stored, and every attempt whose quiz exists is kept |
| History.QuizHistory | app.py:432-487 | fails exactly when an attempt whose quiz exists has no score (the `TypeError` of rounding `None`); otherwise one item per kept attempt, in that order, with its quiz key, its score times 100 and its breakdown |
| History.UnscoredAttemptFailsHistory | app.py:475 | the attempt row that an aborted grading leaves behind, with a quiz but no score, makes every later history request fail |
| History.NothingDeletedListsAll | app.py:437-440 | with no quiz deleted, every attempt is listed in order |
| HistoryCharts.AccuracyChart | frontend/src/pages/QuizHistory.jsx:56-64 | the pie is exactly Correct/Incorrect with [correctAnswers, incorrectAnswers] |
| HistoryCharts.AccuracyOfHistory | frontend/src/pages/QuizHistory.jsx:56-64 | for a server-built item the slices add up to the number of responses, the first being the correct ones |
| HistoryCharts.LabelShape | frontend/src/pages/QuizHistory.jsx:68 | the label is the chapter, " (", the difficulty and ")" |
| HistoryCharts.LabelIsNotIndex | frontend/src/pages/QuizHistory.jsx:67-77 | a label is never all digits, so object keys keep insertion order |
| HistoryCharts.LabelInjective | frontend/src/pages/QuizHistory.jsx:68 | while difficulties hold no "(", different pairs get different labels |
| HistoryCharts.LabelsCanCollide | frontend/src/pages/QuizHistory.jsx:68 | two different pairs can share a label when a chapter name contains " (" |
| HistoryCharts.LabelTallies | frontend/src/pages/QuizHistory.jsx:67-73 | one tally per entry, under its label, with its counts |
| HistoryCharts.ColumnSums | frontend/src/pages/QuizHistory.jsx:78-79 | each data array sums to the bars' total |
| HistoryCharts.ChapterDifficultyChart | frontend/src/pages/QuizHistory.jsx:66-96 | labels and both data arrays have equal length, at most the entries'; labels are distinct; each datum is its label's summed count |
| HistoryCharts.ChartCoversEntries | frontend/src/pages/QuizHistory.jsx:67-77 | every entry's label has a bar and every bar comes from an entry |
| HistoryCharts.ChartTotals | frontend/src/pages/QuizHistory.jsx:67-79 | each data array sums to the entries' total |
| HistoryCharts.ChartOrder | frontend/src/pages/QuizHistory.jsx:67-77 | bars follow the first occurrence of their labels |
| HistoryCharts.ChartMatchesAccuracy | frontend/src/pages/QuizHistory.jsx:56-79 | for a server-built item the bars add up to the pie |
| HistoryCharts.TruncateLabel | frontend/src/pages/QuizHistory.jsx:243-245 | at most 21 characters; a label of at most 20 is unchanged; a longer one becomes its first 20 characters and "…" |
| HistoryCharts.TruncateIdempotent | frontend/src/pages/QuizHistory.jsx:243-245 | shortening twice is shortening once |

## Left out

- Rendering and styling are not modelled beyond which controls the page shows. `QuizSession.Enabled` records that the controls exist only on the question screen, that "Next" shows before the last question and "Submit" on the last, and that the options and the flag belong to the current question. The layout and the colour of the timer are left out.
- React effect scheduling, `setInterval`, stale closures and StrictMode double calls are not modelled. Every handler reads the current state, and a tick is a command the environment may issue while the countdown is positive. When the countdown reaches zero, the effect runs again and its new interval fires once more at zero (QuizPage.jsx:40-55). That extra tick calls the `handleSubmit` of the render that zeroed the countdown. When answers are still missing, it repeats the incomplete-answers alert. When the last missing answer was chosen while the countdown showed 1, the expiring tick ran an older closure that saw the answers incomplete, so it only alerted and set the countdown to 0. The render at 0 sees every answer and `submitting` false. The extra tick then posts with no click, with `time_taken` equal to `duration - 0` (QuizPage.jsx:98). The model has neither the extra tick nor this request: a post with time `duration` is not among its behaviours.
- QuizSession.NoSecondPost: holds only when a tick reads the current state. The page's interval calls the `handleSubmit` closure of the render in which `timeLeft` last changed (effect dependencies `[timeLeft]`, QuizPage.jsx:40-55). Suppose every question is answered when the countdown shows 1, and the user clicks Submit within that last second. The click posts and sets `submitting`. The expiring tick then reads the stale `submitting === false` (QuizPage.jsx:86) and posts a second time, with the answers of the older render. By the same staleness, an answer chosen in the last second is not seen by the expiring tick. The model keeps no closure, so it shows neither.
- `alert`, `navigate` and the POST request are not performed; they are returned as effects. `SubmitResolved` returns the success alert and the route change to the history page, and marks the session `navigated`. The page is then unmounted, so nothing is enabled on it any more.
- A quiz that arrives with no questions makes the render throw: `questions[currentIndex]` is undefined (QuizPage.jsx:130) and reading its `chapter` fails (QuizPage.jsx:164). No error boundary catches it, so the page is gone and its interval never starts. `QuizSession.Enabled` records this as "nothing is enabled"; the crash itself is not modelled.
- `get_quiz_questions` (app.py:263-285) is not modelled. `Loaded` receives the questions and a duration already in seconds.
- The DQN agent, `torch` weight loading and `random.shuffle` are oracle parameters. The agent may return any integer. An action outside 0..17 is decoded and looked up like any other, as in the code.
- Floating-point values are exact `Fraction`s. Rounding is not modelled:
  - the XP sum (app.py:183-184), so `XpLevel` takes the rounded total;
  - the average score (app.py:203-204);
  - the overall progress (app.py:192-201);
  - the history score (app.py:475).
- Persistence, sessions and the follow-up quiz creation in `submit_quiz` (app.py:319-326, 362, 383-425) are not modelled. The aggregation and grading loops are modelled over a map from question key to row.
- History.QuizHistory: the remarks, time and timestamp fields of an item are not modelled, because they are copied from stored rows. The score is carried as the stored fraction times 100, without the rounding to two decimals. An attempt whose score was never set makes `round(None * 100, 2)` raise `TypeError` (app.py:475), and the whole request fails. The aborted grading in the Findings table leaves exactly such an attempt behind, since the attempt row is committed before grading (app.py:323-325).
- HistoryCharts.TruncateLabel counts Unicode characters. JavaScript's `length` and `slice` count UTF-16 code units, so for text outside the Basic Multilingual Plane the cut can fall elsewhere. The member states what the callback does to label text. The page registers Chart.js through `ChartJS.register` (QuizHistory.jsx:6-8), the API of version 3 and later. There a category axis calls `callback(value, index, ticks)` with the tick index as `value`. `label.length` is then `undefined`, the comparison is false, and the index is returned unchanged. So as written the axis shows 0, 1, 2, … and nothing is shortened. The label text would need `this.getLabelForValue(value)`. The Chart.js version is not pinned in the files modelled here.
- QuizSession.TimerTick: the countdown is non-increasing only from a non-negative value. A negative countdown, which a reachable session never has, jumps to 0.
- Dashboard.CalculateStreak: calendar days are integers, and the UTC date conversion of timestamps is not modelled.

## Findings

| source | as written | input that shows it | evidently intended | confidence | as-written member | corrected member |
|---|---|---|---|---|---|---|
| app.py:328 | grading reads `Questions.query.get(q_id).correct_answer` without checking that the question exists, so an answer to a missing question raises before the score is stored; the attempt row committed at app.py:323-325 keeps no score, and every later history request fails on it (`History.UnscoredAttemptFailsHistory`) | answers `{7: "A"}` with no question 7 in the bank | skip or count as wrong an answer whose question is missing, as the loop at app.py:337-340 does | not executed | Submission.CorrectSumAsWritten, Submission.ScoreAsWritten, Submission.ScoreAbortsOnMissingQuestion | Submission.Score |

=== FILE: dashboard.dfy ===
/** The dashboard calculators of the backend: streak, XP level, time spent,
    adaptive level and per-subject completion. Database queries become
    sequences of rows; the clock becomes the `today` parameter. */
module Dashboard {
  import opened Maybe
  import opened Decimal
  import opened Store

  /** `today - timedelta(days=k)`. */
  function DaysAgo(today: int, k: nat): int
  {
    today - k
  }

  /** How many consecutive days, counting back from today, appear among the
      dates considered -- and only the latest attempt's date is considered.
      `recent` is newest first. */
  method CalculateStreak(recent: seq<Attempt>, today: int) returns (streak: nat)
    ensures streak == 1 <==> |recent| > 0 && recent[0].day == today
    ensures streak == 0 <==> |recent| == 0 || recent[0].day != today
  {
    var dates: set<int> := if |recent| > 0 then {recent[0].day} else {};
    streak := 0;
    var i := 0;
    while i < 10
      invariant 0 <= i <= 10
      invariant streak == i <= 1
      invariant forall k | 0 <= k < i :: DaysAgo(today, k) in dates
      invariant i > 0 ==> DaysAgo(today, 0) in dates
    {
      if DaysAgo(today, i) in dates {
        streak := streak + 1;
        i := i + 1;
      } else {
        break;
      }
    }
  }

  /** The XP bands: over 100 is Intermediate, over 300 is Advanced. */
  function XpLevel(totalXp: int): (level: string)
    ensures level == "Beginner" <==> totalXp <= 100
    ensures level == "Intermediate" <==> 100 < totalXp <= 300
    ensures level == "Advanced" <==> totalXp > 300
  {
    var afterFirstBand := if totalXp > 100 then "Intermediate" else "Beginner";
    if totalXp > 300 then "Advanced" else afterFirstBand
  }

  function LevelRank(level: string): nat
  {
    if level == "Advanced" then 2 else if level == "Intermediate" then 1 else 0
  }

  /** More XP never gives a lower level. */
  lemma XpLevelMonotone(xp1: int, xp2: int)
    requires xp1 <= xp2
    ensures LevelRank(XpLevel(xp1)) <= LevelRank(XpLevel(xp2))
  {
  }

  /** `sum(attempt.time_taken or 0 ...)`. */
  function TotalSeconds(attempts: seq<Attempt>): int
  {
    if |attempts| == 0 then 0
    else attempts[0].timeTaken.GetOr(0) + TotalSeconds(attempts[1..])
  }

  /** "H hrs M min", where H hours and M minutes make up the whole minutes of
      the total (Python's `//` floors, as Dafny's `/` does for a positive
      divisor) and M is below 60. */
  function TimeSpent(attempts: seq<Attempt>): (r: string)
    ensures exists hours: int, mins: nat {:trigger IntToString(hours), NatToString(mins)} ::
      && mins < 60
      && 60 * hours + mins == TotalSeconds(attempts) / 60
      && r == IntToString(hours) + " hrs " + NatToString(mins) + " min"
  {
    var minutes := TotalSeconds(attempts) / 60;
    IntToString(minutes / 60) + " hrs " + NatToString(minutes % 60) + " min"
  }

  /** For a non-negative total, the hours and minutes shown cover the total
      to within one minute. */
  lemma TimeSpentCoversTotal(total: int, hours: int, mins: nat)
    requires total >= 0 && mins < 60 && 60 * hours + mins == total / 60
    ensures hours >= 0
    ensures 3600 * hours + 60 * mins <= total < 3600 * hours + 60 * mins + 60
  {
  }

  function SumEasyCorrect(perf: seq<PerformanceRow>): int
  {
    if |perf| == 0 then 0 else perf[0].easyCorrect + SumEasyCorrect(perf[1..])
  }

  function SumMediumCorrect(perf: seq<PerformanceRow>): int
  {
    if |perf| == 0 then 0 else perf[0].mediumCorrect + SumMediumCorrect(perf[1..])
  }

  function SumHardCorrect(perf: seq<PerformanceRow>): int
  {
    if |perf| == 0 then 0 else perf[0].hardCorrect + SumHardCorrect(perf[1..])
  }

  /** The level whose summed correct count is largest, ties going to the
      easier level: Advanced only when hard strictly beats both others,
      Intermediate when medium beats easy and is not beaten by hard, and
      Beginner whenever easy is at least as large as both. */
  function AdaptiveLevel(perf: seq<PerformanceRow>): (level: string)
    ensures var e, m, h := SumEasyCorrect(perf), SumMediumCorrect(perf), SumHardCorrect(perf);
      && (level == "Advanced" <==> h > m && h > e)
      && (level == "Intermediate" <==> m > e && m >= h)
      && (level == "Beginner" <==> e >= m && e >= h)
  {
    var hard := SumHardCorrect(perf);
    var medium := SumMediumCorrect(perf);
    var easy := SumEasyCorrect(perf);
    if hard > medium && hard > easy then "Advanced"
    else if medium > easy then "Intermediate"
    else "Beginner"
  }

  datatype Chapter = Chapter(id: int, name: string)

  datatype SubjectStat = SubjectStat(name: string, icon: string, completion: int, buttonText: string)

  /** `Performance.query.filter_by(user_id=..., chapter_id=...).first()`:
      the first of the user's rows for the chapter. */
  function FirstRowFor(perf: seq<PerformanceRow>, chapterId: int): (r: Option<PerformanceRow>)
    ensures r.Some? ==> r.value in perf && r.value.chapterId == chapterId
    ensures r.Some? ==> exists k | 0 <= k < |perf| :: perf[k] == r.value && forall j | 0 <= j < k :: perf[j].chapterId != chapterId
    ensures r.None? <==> forall p | p in perf :: p.chapterId != chapterId
  {
    if |perf| == 0 then None
    else if perf[0].chapterId == chapterId then Some(perf[0])
    else FirstRowFor(perf[1..], chapterId)
  }

  /** Correct answers on the chapter's first row, 0 when it has none. */
  function ChapterCorrect(perf: seq<PerformanceRow>, chapterId: int): int
  {
    match FirstRowFor(perf, chapterId)
    case None => 0
    case Some(p) => p.easyCorrect + p.mediumCorrect + p.hardCorrect
  }

  /** One chapter's card: ten percent per correct answer, capped at 100, and
      "Continue" exactly when the count is non-zero (Python truthiness). */
  function SubjectCard(ch: Chapter, perf: seq<PerformanceRow>): (s: SubjectStat)
    ensures var correct := ChapterCorrect(perf, ch.id);
      && s.name == ch.name
      && s.completion <= 100
      && (correct >= 0 ==> 0 <= s.completion)
      && (s.completion == 100 <==> correct >= 10)
      && (correct < 10 ==> s.completion == 10 * correct)
      && (s.buttonText == "Continue" <==> correct != 0)
      && (s.buttonText != "Continue" ==> s.buttonText == "Start Quiz")
  {
    var totalCorrect := ChapterCorrect(perf, ch.id);
    var completion := if 100 < totalCorrect * 10 then 100 else totalCorrect * 10;
    SubjectStat(ch.name, "\U{1F4D8}", completion, if totalCorrect != 0 then "Continue" else "Start Quiz")
  }

  /** One card per chapter, in the chapters' order. */
  function SubjectStats(chapters: seq<Chapter>, perf: seq<PerformanceRow>): (r: seq<SubjectStat>)
    ensures |r| == |chapters|
    ensures forall i | 0 <= i < |r| :: r[i] == SubjectCard(chapters[i], perf)
  {
    if |chapters| == 0 then []
    else [SubjectCard(chapters[0], perf)] + SubjectStats(chapters[1..], perf)
  }
}

=== FILE: decimal.dfy ===
/** Decimal rendering of integers, as Python's `str`/f-strings and JavaScript's
    `toString` produce it, together with the left padding of `padStart` and a
    reading-back function used to state round trips. */
module Decimal {

  predicate IsDigit(c: char)
  {
    '0' <= c <= '9'
  }

  predicate AllDigits(s: string)
  {
    forall i :: 0 <= i < |s| ==> IsDigit(s[i])
  }

  function DigitChar(d: nat): (c: char)
    requires d < 10
    ensures IsDigit(c) && (c - '0') as int == d
  {
    (d + '0' as int) as char
  }

  /** The value of a string of decimal digits, most significant first. */
  function DigitsValue(s: string): nat
    requires AllDigits(s)
  {
    if |s| == 0 then 0
    else DigitsValue(s[..|s| - 1]) * 10 + (s[|s| - 1] - '0') as int
  }

  /** Decimal digits of a natural number, without leading zeros. */
  function NatToString(n: nat): (s: string)
    ensures AllDigits(s)
    ensures 1 <= |s|
    ensures (|s| == 1) == (n < 10)
    ensures (|s| <= 2) == (n < 100)
    decreases n
  {
    if n < 10 then [DigitChar(n)]
    else NatToString(n / 10) + [DigitChar(n % 10)]
  }

  /** `str(i)` / `i.toString()`: a minus sign in front of the magnitude. */
  function IntToString(i: int): (s: string)
    ensures 1 <= |s|
    ensures i >= 0 ==> s == NatToString(i)
    ensures i < 0 ==> s[0] == '-' && s[1..] == NatToString(-i)
  {
    if i < 0 then "-" + NatToString(-i) else NatToString(i)
  }

  function Repeat(c: char, n: nat): (s: string)
    ensures |s| == n
    ensures forall i :: 0 <= i < n ==> s[i] == c
  {
    if n == 0 then [] else [c] + Repeat(c, n - 1)
  }

  /** JavaScript's `s.padStart(width, fill)` for a one-character fill. */
  function PadStart(s: string, width: nat, fill: char): (r: string)
    ensures |r| == if |s| >= width then |s| else width
    ensures r[|r| - |s|..] == s
    ensures forall i :: 0 <= i < |r| - |s| ==> r[i] == fill
  {
    if |s| >= width then s else Repeat(fill, width - |s|) + s
  }

  /** Reading back what `NatToString` wrote gives the number again. */
  lemma {:induction false} NatToStringRoundTrip(n: nat)
    ensures DigitsValue(NatToString(n)) == n
    decreases n
  {
    if n >= 10 {
      var s := NatToString(n);
      assert s[..|s| - 1] == NatToString(n / 10);
      NatToStringRoundTrip(n / 10);
    }
  }

  /** A leading zero does not change the value of a digit string. */
  lemma {:induction false} LeadingZero(s: string)
    requires AllDigits(s)
    ensures AllDigits("0" + s) && DigitsValue("0" + s) == DigitsValue(s)
    decreases |s|
  {
    var t := "0" + s;
    assert AllDigits(t) by {
      forall i | 0 <= i < |t| ensures IsDigit(t[i]) {
        if i > 0 { assert t[i] == s[i - 1]; }
      }
    }
    if |s| > 0 {
      assert t[..|t| - 1] == "0" + s[..|s| - 1];
      LeadingZero(s[..|s| - 1]);
    }
  }

  /** Any number of leading zeros leaves the value of a digit string alone. */
  lemma {:induction false} LeadingZeros(k: nat, s: string)
    requires AllDigits(s)
    ensures AllDigits(Repeat('0', k) + s)
    ensures DigitsValue(Repeat('0', k) + s) == DigitsValue(s)
    decreases k
  {
    if k == 0 {
      assert Repeat('0', k) + s == s;
    } else {
      var rest := Repeat('0', k - 1) + s;
      LeadingZeros(k - 1, s);
      assert Repeat('0', k) + s == "0" + rest;
      LeadingZero(rest);
    }
  }

  /** Padding a digit string with zeros keeps its value. */
  lemma PadZerosValue(s: string, width: nat)
    requires AllDigits(s)
    ensures AllDigits(PadStart(s, width, '0'))
    ensures DigitsValue(PadStart(s, width, '0')) == DigitsValue(s)
  {
    if |s| < width {
      LeadingZeros(width - |s|, s);
    }
  }
}

=== FILE: grouping.dfy ===
/** Grouping tallies by key in order of first occurrence, summing their
    correct and incorrect counts. Both the quiz-history breakdown (keyed by
    the (chapter, difficulty) pair) and the chart's reduction (keyed by the
    "chapter (difficulty)" label) are this fold over an insertion-ordered
    dictionary. */
module Grouping {
  import opened Maybe

  datatype Tally<K> = Tally(key: K, correct: int, incorrect: int)

  function KeysOf<K>(ts: seq<Tally<K>>): (ks: seq<K>)
    ensures |ks| == |ts|
    ensures forall i | 0 <= i < |ts| :: ks[i] == ts[i].key
  {
    seq(|ts|, i requires 0 <= i < |ts| => ts[i].key)
  }

  /** Some tally carries key `k`. */
  predicate HasKey<K(==)>(ts: seq<Tally<K>>, k: K)
  {
    exists i | 0 <= i < |ts| :: ts[i].key == k
  }

  predicate NoDuplicateKeys<K(==)>(ts: seq<Tally<K>>)
  {
    forall i, j | 0 <= i < j < |ts| :: ts[i].key != ts[j].key
  }

  /** Every key of either list occurs in the other. */
  predicate SameKeys<K(==)>(a: seq<Tally<K>>, b: seq<Tally<K>>)
  {
    && (forall i | 0 <= i < |a| :: HasKey(b, a[i].key))
    && (forall i | 0 <= i < |b| :: HasKey(a, b[i].key))
  }

  /** Where key `k` sits in `ts`, if anywhere (the dictionary lookup). */
  function Find<K(==)>(ts: seq<Tally<K>>, k: K): (r: Option<nat>)
    ensures r.Some? ==> r.value < |ts| && ts[r.value].key == k
    ensures r.None? <==> !HasKey(ts, k)
  {
    if |ts| == 0 then None
    else if ts[|ts| - 1].key == k then Some(|ts| - 1)
    else
      var init := ts[..|ts| - 1];
      var r := Find(init, k);
      assert forall i | 0 <= i < |init| :: init[i] == ts[i];
      r
  }

  /** One step of the fold: add into the key's tally, or append a new one. */
  function Merge<K(==)>(acc: seq<Tally<K>>, e: Tally<K>): seq<Tally<K>>
  {
    match Find(acc, e.key)
    case Some(j) => acc[j := Tally(e.key, acc[j].correct + e.correct, acc[j].incorrect + e.incorrect)]
    case None => acc + [e]
  }

  /** Sum of the correct counts of the tallies with key `k`. */
  function CorrectFor<K(==)>(ts: seq<Tally<K>>, k: K): int
  {
    if |ts| == 0 then 0
    else CorrectFor(ts[..|ts| - 1], k) + if ts[|ts| - 1].key == k then ts[|ts| - 1].correct else 0
  }

  function IncorrectFor<K(==)>(ts: seq<Tally<K>>, k: K): int
  {
    if |ts| == 0 then 0
    else IncorrectFor(ts[..|ts| - 1], k) + if ts[|ts| - 1].key == k then ts[|ts| - 1].incorrect else 0
  }

  function TotalCorrect<K>(ts: seq<Tally<K>>): int
  {
    if |ts| == 0 then 0 else TotalCorrect(ts[..|ts| - 1]) + ts[|ts| - 1].correct
  }

  function TotalIncorrect<K>(ts: seq<Tally<K>>): int
  {
    if |ts| == 0 then 0 else TotalIncorrect(ts[..|ts| - 1]) + ts[|ts| - 1].incorrect
  }

  /** Index of the first tally with key `k`. */
  function FirstIndex<K(==)>(ts: seq<Tally<K>>, k: K): (i: nat)
    requires HasKey(ts, k)
    ensures i < |ts| && ts[i].key == k
    ensures forall j | 0 <= j < i :: ts[j].key != k
  {
    if ts[0].key == k then 0
    else
      var i :| 0 <= i < |ts| && ts[i].key == k;
      assert ts[1..][i - 1] == ts[i];
      1 + FirstIndex(ts[1..], k)
  }

  /** The fold over the entries, left to right. */
  function Group<K(==)>(entries: seq<Tally<K>>): (g: seq<Tally<K>>)
    ensures |g| <= |entries|
    ensures NoDuplicateKeys(g)
    ensures SameKeys(g, entries)
    ensures forall i | 0 <= i < |g| ::
      g[i].correct == CorrectFor(entries, g[i].key) && g[i].incorrect == IncorrectFor(entries, g[i].key)
    ensures TotalCorrect(g) == TotalCorrect(entries) && TotalIncorrect(g) == TotalIncorrect(entries)
  {
    if |entries| == 0 then []
    else
      var init, e := entries[..|entries| - 1], entries[|entries| - 1];
      var acc := Group(init);
      GroupStep(entries, acc);
      Merge(acc, e)
  }

  /** The fold's step in terms of the whole input: what `Group` promises for
      all but the last entry, one merge extends to all of them. */
  lemma GroupStep<K>(entries: seq<Tally<K>>, acc: seq<Tally<K>>)
    requires |entries| > 0
    requires var init := entries[..|entries| - 1];
      && |acc| <= |init|
      && NoDuplicateKeys(acc)
      && SameKeys(acc, init)
      && (forall i | 0 <= i < |acc| ::
           acc[i].correct == CorrectFor(init, acc[i].key) && acc[i].incorrect == IncorrectFor(init, acc[i].key))
      && TotalCorrect(acc) == TotalCorrect(init) && TotalIncorrect(acc) == TotalIncorrect(init)
    ensures var g := Merge(acc, entries[|entries| - 1]);
      && |g| <= |entries|
      && NoDuplicateKeys(g)
      && SameKeys(g, entries)
      && (forall i | 0 <= i < |g| ::
           g[i].correct == CorrectFor(entries, g[i].key) && g[i].incorrect == IncorrectFor(entries, g[i].key))
      && TotalCorrect(g) == TotalCorrect(entries) && TotalIncorrect(g) == TotalIncorrect(entries)
  {
    var init, e := entries[..|entries| - 1], entries[|entries| - 1];
    assert entries == init + [e];
    MergeKeys(init, acc, e);
    MergeSums(init, acc, e);
    MergeTotals(acc, e);
  }

  lemma {:induction false} AbsentSumsZero<K>(ts: seq<Tally<K>>, k: K)
    requires !HasKey(ts, k)
    ensures CorrectFor(ts, k) == 0 && IncorrectFor(ts, k) == 0
    decreases |ts|
  {
    if |ts| > 0 {
      var init := ts[..|ts| - 1];
      assert forall i | 0 <= i < |init| :: init[i] == ts[i];
      AbsentSumsZero(init, k);
    }
  }

  /** The sums over one more entry. */
  lemma ForAppend<K>(init: seq<Tally<K>>, e: Tally<K>, k: K)
    ensures CorrectFor(init + [e], k) == CorrectFor(init, k) + if e.key == k then e.correct else 0
    ensures IncorrectFor(init + [e], k) == IncorrectFor(init, k) + if e.key == k then e.incorrect else 0
  {
    assert (init + [e])[..|init|] == init;
  }

  /** Which keys one more entry brings. */
  lemma HasKeyAppend<K>(s: seq<Tally<K>>, e: Tally<K>)
    ensures forall k :: HasKey(s + [e], k) <==> HasKey(s, k) || e.key == k
  {
    var t := s + [e];
    assert t[|s|] == e;
    assert forall i | 0 <= i < |s| :: t[i] == s[i];
  }

  /** Merging one more entry keeps the keys unique and in step with the entries. */
  lemma MergeKeys<K>(init: seq<Tally<K>>, acc: seq<Tally<K>>, e: Tally<K>)
    requires NoDuplicateKeys(acc)
    requires SameKeys(acc, init)
    ensures |Merge(acc, e)| <= |acc| + 1
    ensures NoDuplicateKeys(Merge(acc, e))
    ensures SameKeys(Merge(acc, e), init + [e])
  {
    var g := Merge(acc, e);
    HasKeyAppend(init, e);
    HasKeyAppend(acc, e);
    match Find(acc, e.key)
    case Some(j) =>
      assert forall i | 0 <= i < |g| :: g[i].key == acc[i].key;
      assert forall k :: HasKey(g, k) <==> HasKey(acc, k);
    case None =>
  }

  /** Merging one more entry keeps every tally equal to the sums of its key. */
  lemma MergeSums<K>(init: seq<Tally<K>>, acc: seq<Tally<K>>, e: Tally<K>)
    requires NoDuplicateKeys(acc)
    requires SameKeys(acc, init)
    requires forall i | 0 <= i < |acc| ::
      acc[i].correct == CorrectFor(init, acc[i].key) && acc[i].incorrect == IncorrectFor(init, acc[i].key)
    ensures var g := Merge(acc, e);
      forall i | 0 <= i < |g| ::
        g[i].correct == CorrectFor(init + [e], g[i].key) && g[i].incorrect == IncorrectFor(init + [e], g[i].key)
  {
    var g := Merge(acc, e);
    forall k ensures CorrectFor(init + [e], k) == CorrectFor(init, k) + (if e.key == k then e.correct else 0)
      && IncorrectFor(init + [e], k) == IncorrectFor(init, k) + (if e.key == k then e.incorrect else 0)
    {
      ForAppend(init, e, k);
    }
    match Find(acc, e.key)
    case Some(j) =>
    case None =>
      AbsentSumsZero(init, e.key);
  }

  /** Keys of `g` appear in the order of their first occurrence in `entries`. */
  predicate FirstOccurrenceOrder<K(==)>(entries: seq<Tally<K>>, g: seq<Tally<K>>)
    requires forall i | 0 <= i < |g| :: HasKey(entries, g[i].key)
  {
    forall i, j | 0 <= i < j < |g| :: FirstIndex(entries, g[i].key) < FirstIndex(entries, g[j].key)
  }

  /** The fold lists every key at the place of its first occurrence: keys
      that occur earlier in the input come earlier in the output. */
  lemma {:induction false} GroupFirstOccurrenceOrder<K>(entries: seq<Tally<K>>)
    ensures FirstOccurrenceOrder(entries, Group(entries))
    decreases |entries|
  {
    if |entries| > 0 {
      var init, e := entries[..|entries| - 1], entries[|entries| - 1];
      assert entries == init + [e];
      var acc := Group(init);
      assert Group(entries) == Merge(acc, e);
      GroupFirstOccurrenceOrder(init);
      OrderStep(init, acc, e);
    }
  }

  /** A merge keeps the keys in place and appends a tally only for a new key. */
  lemma MergeShape<K>(acc: seq<Tally<K>>, e: Tally<K>)
    ensures var g := Merge(acc, e);
      && (|g| == |acc| || (|g| == |acc| + 1 && g[|acc|] == e && !HasKey(acc, e.key)))
      && forall i | 0 <= i < |acc| :: g[i].key == acc[i].key
  {
  }

  /** One step of the fold keeps the keys in first-occurrence order. */
  lemma OrderStep<K>(init: seq<Tally<K>>, acc: seq<Tally<K>>, e: Tally<K>)
    requires SameKeys(acc, init)
    requires FirstOccurrenceOrder(init, acc)
    requires SameKeys(Merge(acc, e), init + [e])
    ensures FirstOccurrenceOrder(init + [e], Merge(acc, e))
  {
    var entries, g := init + [e], Merge(acc, e);
    MergeShape(acc, e);
    forall i, j | 0 <= i < j < |g|
      ensures FirstIndex(entries, g[i].key) < FirstIndex(entries, g[j].key)
    {
      FirstIndexPrefix(init, [e], acc[i].key);
      if j < |acc| {
        FirstIndexPrefix(init, [e], acc[j].key);
      } else {
        FirstIndexAppended(init, e);
      }
    }
  }

  lemma {:induction false} FirstIndexPrefix<K>(s: seq<Tally<K>>, t: seq<Tally<K>>, k: K)
    requires HasKey(s, k)
    ensures HasKey(s + t, k)
    ensures FirstIndex(s + t, k) == FirstIndex(s, k)
  {
    var i := FirstIndex(s, k);
    assert (s + t)[i] == s[i];
    assert forall j | 0 <= j < i :: (s + t)[j] == s[j];
  }

  lemma FirstIndexAppended<K>(s: seq<Tally<K>>, e: Tally<K>)
    requires !HasKey(s, e.key)
    ensures HasKey(s + [e], e.key)
    ensures FirstIndex(s + [e], e.key) == |s|
  {
    var t := s + [e];
    assert t[|s|] == e;
    assert forall j | 0 <= j < |s| :: t[j] == s[j];
  }

  lemma {:induction false} TotalsAfterUpdate<K>(ts: seq<Tally<K>>, j: nat, t: Tally<K>)
    requires j < |ts|
    ensures TotalCorrect(ts[j := t]) == TotalCorrect(ts) - ts[j].correct + t.correct
    ensures TotalIncorrect(ts[j := t]) == TotalIncorrect(ts) - ts[j].incorrect + t.incorrect
    decreases |ts|
  {
    var u := ts[j := t];
    if j < |ts| - 1 {
      assert u[..|u| - 1] == ts[..|ts| - 1][j := t];
      TotalsAfterUpdate(ts[..|ts| - 1], j, t);
    } else {
      assert u[..|u| - 1] == ts[..|ts| - 1];
    }
  }

  /** Merging one entry adds exactly its counts to the totals. */
  lemma MergeTotals<K>(acc: seq<Tally<K>>, e: Tally<K>)
    ensures TotalCorrect(Merge(acc, e)) == TotalCorrect(acc) + e.correct
    ensures TotalIncorrect(Merge(acc, e)) == TotalIncorrect(acc) + e.incorrect
  {
    match Find(acc, e.key)
    case Some(j) =>
      TotalsAfterUpdate(acc, j, Tally(e.key, acc[j].correct + e.correct, acc[j].incorrect + e.incorrect));
    case None =>
      var g := acc + [e];
      assert g[..|g| - 1] == acc;
  }
}

=== FILE: history.dfy ===
/** The quiz-history breakdown: each recorded response of an attempt is
    counted once, as correct or incorrect, under its (chapter name,
    difficulty) pair; the pairs keep the order in which they first occur,
    and the attempt's totals are the sums over the pairs. */
module History {
  import opened Maybe
  import opened Grouping
  import opened Ratio

  /** One joined response row: chapter name, question difficulty, correctness. */
  datatype Response = Response(chapterName: string, difficulty: string, isCorrect: bool)

  type BreakdownKey = (string, string)

  datatype ChapterEntry = ChapterEntry(chapter: string, difficulty: string, correct: int, incorrect: int)

  /** The part of one history item the breakdown determines. */
  datatype Summary = Summary(total: int, correctAnswers: int, incorrectAnswers: int, chapters: seq<ChapterEntry>)

  /** A stored attempt; `quiz` is None when its quiz row no longer exists,
      `score` is None when it was never set. */
  datatype AttemptRecord = AttemptRecord(quiz: Option<int>, score: Option<Fraction>, responses: seq<Response>)

  /** The part of one history item the model covers; `score` is the stored
      score times 100, before rounding. */
  datatype HistoryItem = HistoryItem(quizId: int, score: Fraction, summary: Summary)

  function KeyOf(r: Response): BreakdownKey
  {
    (r.chapterName, r.difficulty)
  }

  /** The response as a unit tally under its pair. */
  function AsTally(r: Response): (t: Tally<BreakdownKey>)
    ensures t.key == KeyOf(r)
    ensures 0 <= t.correct && 0 <= t.incorrect && t.correct + t.incorrect == 1
    ensures t.correct == 1 <==> r.isCorrect
  {
    if r.isCorrect then Tally(KeyOf(r), 1, 0) else Tally(KeyOf(r), 0, 1)
  }

  function Tallies(rs: seq<Response>): (ts: seq<Tally<BreakdownKey>>)
    ensures |ts| == |rs|
    ensures forall i | 0 <= i < |rs| :: ts[i] == AsTally(rs[i])
  {
    seq(|rs|, i requires 0 <= i < |rs| => AsTally(rs[i]))
  }

  /** Reference count: responses under pair `k` whose correctness is `c`. */
  function CountWith(rs: seq<Response>, k: BreakdownKey, c: bool): nat
  {
    if |rs| == 0 then 0
    else CountWith(rs[..|rs| - 1], k, c) + if KeyOf(rs[|rs| - 1]) == k && rs[|rs| - 1].isCorrect == c then 1 else 0
  }

  /** Reference count: correct responses, whatever their pair. */
  function CountCorrect(rs: seq<Response>): nat
  {
    if |rs| == 0 then 0
    else CountCorrect(rs[..|rs| - 1]) + if rs[|rs| - 1].isCorrect then 1 else 0
  }

  lemma {:induction false} TalliesCount(rs: seq<Response>, k: BreakdownKey)
    ensures CorrectFor(Tallies(rs), k) == CountWith(rs, k, true)
    ensures IncorrectFor(Tallies(rs), k) == CountWith(rs, k, false)
    ensures TotalCorrect(Tallies(rs)) == CountCorrect(rs)
    ensures TotalIncorrect(Tallies(rs)) == |rs| - CountCorrect(rs)
    decreases |rs|
  {
    if |rs| > 0 {
      var init := rs[..|rs| - 1];
      assert Tallies(rs)[..|rs| - 1] == Tallies(init);
      TalliesCount(init, k);
      CountCorrectBound(init);
    }
  }

  lemma {:induction false} CountCorrectBound(rs: seq<Response>)
    ensures CountCorrect(rs) <= |rs|
    decreases |rs|
  {
    if |rs| > 0 {
      CountCorrectBound(rs[..|rs| - 1]);
    }
  }

  function Entries(b: seq<Tally<BreakdownKey>>): (es: seq<ChapterEntry>)
    ensures |es| == |b|
    ensures forall i | 0 <= i < |b| ::
      es[i] == ChapterEntry(b[i].key.0, b[i].key.1, b[i].correct, b[i].incorrect)
  {
    seq(|b|, i requires 0 <= i < |b| => ChapterEntry(b[i].key.0, b[i].key.1, b[i].correct, b[i].incorrect))
  }

  function EntriesCorrect(es: seq<ChapterEntry>): int
  {
    if |es| == 0 then 0 else EntriesCorrect(es[..|es| - 1]) + es[|es| - 1].correct
  }

  function EntriesIncorrect(es: seq<ChapterEntry>): int
  {
    if |es| == 0 then 0 else EntriesIncorrect(es[..|es| - 1]) + es[|es| - 1].incorrect
  }

  lemma {:induction false} EntriesTotals(b: seq<Tally<BreakdownKey>>)
    ensures EntriesCorrect(Entries(b)) == TotalCorrect(b)
    ensures EntriesIncorrect(Entries(b)) == TotalIncorrect(b)
    decreases |b|
  {
    if |b| > 0 {
      var init := b[..|b| - 1];
      assert Entries(b)[..|b| - 1] == Entries(init);
      EntriesTotals(init);
    }
  }

  /** The per-pair counts of one attempt, pairs in order of first response. */
  function Breakdown(rs: seq<Response>): (b: seq<Tally<BreakdownKey>>)
    ensures |b| <= |rs|
    ensures NoDuplicateKeys(b)
    ensures forall i | 0 <= i < |b| ::
      b[i].correct == CountWith(rs, b[i].key, true) && b[i].incorrect == CountWith(rs, b[i].key, false)
    ensures forall i | 0 <= i < |rs| :: HasKey(b, KeyOf(rs[i]))
    ensures forall i | 0 <= i < |b| :: HasKey(Tallies(rs), b[i].key)
    ensures FirstOccurrenceOrder(Tallies(rs), b)
    ensures TotalCorrect(b) == CountCorrect(rs) && TotalIncorrect(b) == |rs| - CountCorrect(rs)
  {
    var ts := Tallies(rs);
    var b := Group(ts);
    TalliesCount(rs, ("", ""));
    forall k ensures CorrectFor(ts, k) == CountWith(rs, k, true) && IncorrectFor(ts, k) == CountWith(rs, k, false) {
      TalliesCount(rs, k);
    }
    forall i | 0 <= i < |rs| ensures HasKey(b, KeyOf(rs[i])) {
      assert ts[i].key == KeyOf(rs[i]);
    }
    GroupFirstOccurrenceOrder(ts);
    b
  }

  /** The breakdown and totals of one attempt: one entry per pair, and
      totals that count every response once. */
  function Summarize(rs: seq<Response>): (s: Summary)
    ensures s.correctAnswers == CountCorrect(rs)
    ensures s.incorrectAnswers == |rs| - CountCorrect(rs)
    ensures s.total == s.correctAnswers + s.incorrectAnswers == |rs|
    ensures s.correctAnswers == EntriesCorrect(s.chapters) && s.incorrectAnswers == EntriesIncorrect(s.chapters)
  {
    var b := Breakdown(rs);
    EntriesTotals(b);
    Summary(TotalCorrect(b) + TotalIncorrect(b), TotalCorrect(b), TotalIncorrect(b), Entries(b))
  }

  /** The entries of a summary are the breakdown's pairs with their counts,
      in the breakdown's order. */
  lemma SummaryEntries(rs: seq<Response>)
    ensures var s, b := Summarize(rs), Breakdown(rs);
      && |s.chapters| == |b|
      && forall i | 0 <= i < |b| ::
           s.chapters[i] == ChapterEntry(b[i].key.0, b[i].key.1, b[i].correct, b[i].incorrect)
  {
  }

  /** The item listed for an attempt whose quiz exists and whose score was
      set: the quiz key, the score as a percentage and the breakdown. */
  function ItemOf(a: AttemptRecord): HistoryItem
    requires a.quiz.Some? && a.score.Some?
  {
    HistoryItem(a.quiz.value, Fraction(100 * a.score.value.num, a.score.value.den), Summarize(a.responses))
  }

  /** The attempts whose quiz still exists, in stored order. */
  function Existing(attempts: seq<AttemptRecord>): (kept: seq<AttemptRecord>)
    ensures |kept| <= |attempts|
    ensures forall i | 0 <= i < |kept| :: kept[i].quiz.Some?
    decreases |attempts|
  {
    if |attempts| == 0 then []
    else
      var init, a := attempts[..|attempts| - 1], attempts[|attempts| - 1];
      if a.quiz.Some? then Existing(init) + [a] else Existing(init)
  }

  /** The positions of the attempts whose quiz still exists: increasing,
      each at an existing quiz's attempt, and every such attempt among them. */
  function KeptIndices(attempts: seq<AttemptRecord>): (idx: seq<nat>)
    ensures forall i | 0 <= i < |idx| :: idx[i] < |attempts| && attempts[idx[i]].quiz.Some?
    ensures forall i, j | 0 <= i < j < |idx| :: idx[i] < idx[j]
    ensures forall j | 0 <= j < |attempts| :: attempts[j].quiz.Some? ==> j in idx
    decreases |attempts|
  {
    if |attempts| == 0 then []
    else
      var init := attempts[..|attempts| - 1];
      assert forall j | 0 <= j < |init| :: init[j] == attempts[j];
      KeptIndices(init) + if attempts[|attempts| - 1].quiz.Some? then [|attempts| - 1] else []
  }

  /** The kept attempts are the attempts at those positions, in that order:
      an order-preserving selection of exactly the attempts whose quiz
      exists, each as many times as it is stored. */
  lemma {:induction false} ExistingInOrder(attempts: seq<AttemptRecord>)
    ensures var kept, idx := Existing(attempts), KeptIndices(attempts);
      && |kept| == |idx|
      && forall i | 0 <= i < |kept| :: kept[i] == attempts[idx[i]]
    decreases |attempts|
  {
    if |attempts| > 0 {
      var n := |attempts|;
      var init := attempts[..n - 1];
      ExistingInOrder(init);
      var kept0, idx0 := Existing(init), KeptIndices(init);
      forall i | 0 <= i < |kept0| ensures kept0[i] == attempts[idx0[i]] {
        assert init[idx0[i]] == attempts[idx0[i]];
      }
      if attempts[n - 1].quiz.Some? {
        var kept, idx := kept0 + [attempts[n - 1]], idx0 + [n - 1];
        assert Existing(attempts) == kept && KeptIndices(attempts) == idx;
        assert forall i | 0 <= i < |kept0| :: kept[i] == kept0[i] && idx[i] == idx0[i];
      } else {
        assert Existing(attempts) == kept0 && KeptIndices(attempts) == idx0;
      }
    }
  }

  /** The kept attempts are stored attempts, and every attempt whose quiz
      exists is kept. */
  lemma ExistingMembers(attempts: seq<AttemptRecord>)
    ensures forall i | 0 <= i < |Existing(attempts)| :: Existing(attempts)[i] in attempts
    ensures forall j | 0 <= j < |attempts| :: attempts[j].quiz.Some? ==> attempts[j] in Existing(attempts)
  {
    var kept, idx := Existing(attempts), KeptIndices(attempts);
    ExistingInOrder(attempts);
    forall j | 0 <= j < |attempts| && attempts[j].quiz.Some? ensures attempts[j] in kept {
      var i :| 0 <= i < |idx| && idx[i] == j;
      assert kept[i] == attempts[j];
    }
  }

  /** An attempt whose quiz exists but whose score was never set. */
  predicate Unscored(a: AttemptRecord)
  {
    a.quiz.Some? && a.score.None?
  }

  lemma UnscoredSnoc(init: seq<AttemptRecord>, a: AttemptRecord)
    ensures var attempts := init + [a];
      (exists j | 0 <= j < |attempts| :: Unscored(attempts[j]))
        <==> (exists j | 0 <= j < |init| :: Unscored(init[j])) || Unscored(a)
  {
    var attempts := init + [a];
    assert forall j | 0 <= j < |init| :: attempts[j] == init[j];
    assert attempts[|init|] == a;
  }

  /** The history list, built attempt by attempt: an attempt of a deleted
      quiz is skipped; an attempt whose score was never set makes the score
      rounding raise `TypeError`, failing the whole request (None); every
      other attempt gives one item, in stored order. */
  function QuizHistory(attempts: seq<AttemptRecord>): (r: Option<seq<HistoryItem>>)
    ensures r.None? <==> exists j | 0 <= j < |attempts| :: Unscored(attempts[j])
    ensures r.Some? ==> |r.value| == |Existing(attempts)|
    ensures r.Some? ==> forall i | 0 <= i < |r.value| ::
      Existing(attempts)[i].score.Some? && r.value[i] == ItemOf(Existing(attempts)[i])
    decreases |attempts|
  {
    if |attempts| == 0 then Some([])
    else
      var init, a := attempts[..|attempts| - 1], attempts[|attempts| - 1];
      assert forall j | 0 <= j < |init| :: init[j] == attempts[j];
      assert Existing(attempts) == Existing(init) + if a.quiz.Some? then [a] else [];
      assert attempts == init + [a];
      UnscoredSnoc(init, a);
      match QuizHistory(init)
      case None => None
      case Some(items) =>
        if a.quiz.None? then Some(items)
        else if a.score.None? then None
        else
          AppendItem(items, Existing(init), a);
          Some(items + [ItemOf(a)])
  }

  /** Items listed for `kept` stay listed, in order, when one more attempt is. */
  lemma AppendItem(items: seq<HistoryItem>, kept: seq<AttemptRecord>, a: AttemptRecord)
    requires a.quiz.Some? && a.score.Some?
    requires |items| == |kept|
    requires forall i | 0 <= i < |items| :: kept[i].quiz.Some? && kept[i].score.Some? && items[i] == ItemOf(kept[i])
    ensures var longer, keptLonger := items + [ItemOf(a)], kept + [a];
      forall i | 0 <= i < |longer| :: keptLonger[i].quiz.Some? && keptLonger[i].score.Some? && longer[i] == ItemOf(keptLonger[i])
  {
  }

  /** An attempt stored before grading aborted keeps no score and no
      responses; from then on the whole history request fails. */
  lemma UnscoredAttemptFailsHistory(before: seq<AttemptRecord>, quizId: int)
    ensures QuizHistory(before + [AttemptRecord(Some(quizId), None, [])]) == None
  {
    var attempts := before + [AttemptRecord(Some(quizId), None, [])];
    assert Unscored(attempts[|before|]);
  }

  /** With no quiz deleted, every attempt is listed, in stored order. */
  lemma {:induction false} NothingDeletedListsAll(attempts: seq<AttemptRecord>)
    requires forall j | 0 <= j < |attempts| :: attempts[j].quiz.Some?
    ensures Existing(attempts) == attempts
    decreases |attempts|
  {
    if |attempts| > 0 {
      var init := attempts[..|attempts| - 1];
      NothingDeletedListsAll(init);
      assert attempts == init + [attempts[|attempts| - 1]];
    }
  }
}

=== FILE: history_charts.dfy ===
/** The chart data the quiz-history modal derives from one history item: the
    accuracy pie, the per-"chapter (difficulty)" bar chart, and the shortening
    of long x-axis labels. */
module HistoryCharts {
  import opened Decimal
  import opened Grouping
  import opened History

  datatype PieChart = PieChart(labels: seq<string>, data: seq<int>)

  datatype BarChart = BarChart(labels: seq<string>, correctData: seq<int>, incorrectData: seq<int>)

  const Ellipsis: char := '…'
  const MaxLabelLength: nat := 20

  /** The accuracy pie: correct against incorrect answers. */
  function AccuracyChart(s: Summary): (c: PieChart)
    ensures c.labels == ["Correct", "Incorrect"]
    ensures |c.data| == 2 && c.data[0] == s.correctAnswers && c.data[1] == s.incorrectAnswers
  {
    PieChart(["Correct", "Incorrect"], [s.correctAnswers, s.incorrectAnswers])
  }

  function SumOf(xs: seq<int>): int
  {
    if |xs| == 0 then 0 else SumOf(xs[..|xs| - 1]) + xs[|xs| - 1]
  }

  /** For a breakdown the server built, the pie's two slices split the
      attempt's responses: they add up to their number, and the first is the
      number answered correctly. */
  lemma AccuracyOfHistory(rs: seq<Response>)
    ensures var s := Summarize(rs); var c := AccuracyChart(s);
      SumOf(c.data) == |rs| && c.data[0] == CountCorrect(rs) && c.data[1] >= 0
  {
    var s := Summarize(rs);
    PairSum(s.correctAnswers, s.incorrectAnswers);
    CountCorrectBound(rs);
  }

  lemma PairSum(a: int, b: int)
    ensures SumOf([a, b]) == a + b
  {
    assert [a][..0] == [];
    assert SumOf([a]) == a;
    assert [a, b][..1] == [a];
  }

  /** The bar label of an entry: `chapter (difficulty)`. */
  function Label(chapter: string, difficulty: string): string
  {
    chapter + " (" + difficulty + ")"
  }

  lemma LabelShape(chapter: string, difficulty: string)
    ensures var l := Label(chapter, difficulty);
      && |l| == |chapter| + |difficulty| + 3
      && l[..|chapter|] == chapter
      && l[|chapter|] == ' ' && l[|chapter| + 1] == '('
      && l[|chapter| + 2..|l| - 1] == difficulty
      && l[|l| - 1] == ')'
  {
  }

  /** A label always contains a character that is not a decimal digit, so it
      is never an integer-like property key and the keys of the accumulator
      object keep their insertion order. */
  lemma LabelIsNotIndex(chapter: string, difficulty: string)
    ensures !AllDigits(Label(chapter, difficulty))
  {
    var l := Label(chapter, difficulty);
    LabelShape(chapter, difficulty);
    assert !IsDigit(l[|chapter| + 1]);
  }

  predicate NoOpenParen(s: string)
  {
    forall k | 0 <= k < |s| :: s[k] != '('
  }

  /** While difficulties hold no "(", different (chapter, difficulty) pairs
      get different labels, so merging by label is merging by pair. */
  lemma LabelInjective(c1: string, d1: string, c2: string, d2: string)
    requires NoOpenParen(d1) && NoOpenParen(d2)
    requires Label(c1, d1) == Label(c2, d2)
    ensures c1 == c2 && d1 == d2
  {
    var l := Label(c1, d1);
    LabelShape(c1, d1);
    LabelShape(c2, d2);
    assert forall k | |c1| + 1 < k < |l| :: l[k] != '(' by {
      forall k | |c1| + 1 < k < |l| ensures l[k] != '(' {
        if k < |l| - 1 {
          assert l[k] == l[|c1| + 2..|l| - 1][k - |c1| - 2] == d1[k - |c1| - 2];
        }
      }
    }
    assert forall k | |c2| + 1 < k < |l| :: l[k] != '(' by {
      forall k | |c2| + 1 < k < |l| ensures l[k] != '(' {
        if k < |l| - 1 {
          assert l[k] == l[|c2| + 2..|l| - 1][k - |c2| - 2] == d2[k - |c2| - 2];
        }
      }
    }
    assert |c1| == |c2|;
  }

  /** Distinct pairs can share a label when a chapter name itself ends in
      " (" plus text: both merge into one bar. */
  lemma LabelsCanCollide()
    ensures Label("A (B", "C") == Label("A", "B (C")
  {
  }

  function LabelTallies(chapters: seq<ChapterEntry>): (ts: seq<Tally<string>>)
    ensures |ts| == |chapters|
    ensures forall i | 0 <= i < |chapters| ::
      ts[i] == Tally(Label(chapters[i].chapter, chapters[i].difficulty), chapters[i].correct, chapters[i].incorrect)
  {
    seq(|chapters|, i requires 0 <= i < |chapters| =>
      Tally(Label(chapters[i].chapter, chapters[i].difficulty), chapters[i].correct, chapters[i].incorrect))
  }

  function Column(g: seq<Tally<string>>, correct: bool): (xs: seq<int>)
    ensures |xs| == |g|
    ensures forall i | 0 <= i < |g| :: xs[i] == if correct then g[i].correct else g[i].incorrect
  {
    seq(|g|, i requires 0 <= i < |g| => if correct then g[i].correct else g[i].incorrect)
  }

  lemma {:induction false} ColumnSums(g: seq<Tally<string>>)
    ensures SumOf(Column(g, true)) == TotalCorrect(g)
    ensures SumOf(Column(g, false)) == TotalIncorrect(g)
    decreases |g|
  {
    if |g| > 0 {
      var init := g[..|g| - 1];
      assert Column(g, true)[..|g| - 1] == Column(init, true);
      assert Column(g, false)[..|g| - 1] == Column(init, false);
      ColumnSums(init);
    }
  }

  lemma {:induction false} LabelTalliesTotals(chapters: seq<ChapterEntry>)
    ensures TotalCorrect(LabelTallies(chapters)) == EntriesCorrect(chapters)
    ensures TotalIncorrect(LabelTallies(chapters)) == EntriesIncorrect(chapters)
    decreases |chapters|
  {
    if |chapters| > 0 {
      var init := chapters[..|chapters| - 1];
      assert LabelTallies(chapters)[..|chapters| - 1] == LabelTallies(init);
      LabelTalliesTotals(init);
    }
  }

  /** The merged bars: one tally per label, in order of first occurrence. */
  function Bars(chapters: seq<ChapterEntry>): seq<Tally<string>>
  {
    Group(LabelTallies(chapters))
  }

  /** The bar chart: the labels of the merged bars, and the two data arrays
      aligned with them. */
  function ChapterDifficultyChart(chapters: seq<ChapterEntry>): (c: BarChart)
    ensures |c.labels| == |c.correctData| == |c.incorrectData| <= |chapters|
    ensures forall i, j | 0 <= i < j < |c.labels| :: c.labels[i] != c.labels[j]
    ensures forall i | 0 <= i < |c.labels| ::
      && c.correctData[i] == CorrectFor(LabelTallies(chapters), c.labels[i])
      && c.incorrectData[i] == IncorrectFor(LabelTallies(chapters), c.labels[i])
  {
    var g := Bars(chapters);
    BarChart(KeysOf(g), Column(g, true), Column(g, false))
  }

  /** Every entry's label has a bar, and every bar's label comes from an entry. */
  lemma ChartCoversEntries(chapters: seq<ChapterEntry>)
    ensures var c := ChapterDifficultyChart(chapters);
      && (forall i | 0 <= i < |chapters| :: Label(chapters[i].chapter, chapters[i].difficulty) in c.labels)
      && forall j | 0 <= j < |c.labels| :: HasKey(LabelTallies(chapters), c.labels[j])
  {
    var ts, g := LabelTallies(chapters), Bars(chapters);
    var labels := ChapterDifficultyChart(chapters).labels;
    forall i | 0 <= i < |chapters| ensures Label(chapters[i].chapter, chapters[i].difficulty) in labels {
      assert ts[i].key == Label(chapters[i].chapter, chapters[i].difficulty);
      assert HasKey(g, ts[i].key);
      var j :| 0 <= j < |g| && g[j].key == ts[i].key;
      assert labels[j] == ts[i].key;
    }
  }

  /** Merging neither loses nor invents counts: each data array sums to the
      entries' total. */
  lemma ChartTotals(chapters: seq<ChapterEntry>)
    ensures var c := ChapterDifficultyChart(chapters);
      SumOf(c.correctData) == EntriesCorrect(chapters) && SumOf(c.incorrectData) == EntriesIncorrect(chapters)
  {
    ColumnSums(Bars(chapters));
    LabelTalliesTotals(chapters);
  }

  /** The bars follow the first occurrence of their labels in the entries. */
  lemma ChartOrder(chapters: seq<ChapterEntry>)
    ensures var c, ts := ChapterDifficultyChart(chapters), LabelTallies(chapters);
      forall i, j | 0 <= i < j < |c.labels| :: FirstIndex(ts, c.labels[i]) < FirstIndex(ts, c.labels[j])
  {
    GroupFirstOccurrenceOrder(LabelTallies(chapters));
  }

  /** The bars of a server-built history item add up to its pie. */
  lemma ChartMatchesAccuracy(rs: seq<Response>)
    ensures var s := Summarize(rs); var c := ChapterDifficultyChart(s.chapters);
      SumOf(c.correctData) == s.correctAnswers && SumOf(c.incorrectData) == s.incorrectAnswers
  {
    ChartTotals(Summarize(rs).chapters);
  }

  /** The x-axis tick text: labels longer than 20 characters are cut to 20
      and get an ellipsis. */
  function TruncateLabel(text: string): (r: string)
    ensures |r| <= MaxLabelLength + 1
    ensures |text| <= MaxLabelLength ==> r == text
    ensures |text| > MaxLabelLength ==>
      |r| == MaxLabelLength + 1 && r[..MaxLabelLength] == text[..MaxLabelLength] && r[MaxLabelLength] == Ellipsis
  {
    if |text| > MaxLabelLength then text[..MaxLabelLength] + [Ellipsis] else text
  }

  /** Shortening an already shortened text changes nothing. */
  lemma TruncateIdempotent(text: string)
    ensures TruncateLabel(TruncateLabel(text)) == TruncateLabel(text)
  {
    var r := TruncateLabel(text);
    if |text| > MaxLabelLength {
      assert r[..MaxLabelLength] + [Ellipsis] == r;
    }
  }
}

=== FILE: maybe.dfy ===
/** The optional value shared by the model: Python's `None` and JavaScript's
    `null`/`undefined` become `None`. */
module Maybe {

  datatype Option<+T> = None | Some(value: T) {

    /** The value, or the default when absent (Python's `x or d`, `dict.get(k, d)`). */
    function GetOr(default: T): T
    {
      match this
      case Some(v) => v
      case None => default
    }
  }
}

=== FILE: performance_state.dfy ===
/** The 18-entry performance vector the backend feeds the agent after a
    submission: for chapters 1..6 and each difficulty, the user's correct
    answers over answered questions summed across all performance rows. */
module PerformanceState {
  import opened Maybe
  import opened Ratio
  import opened QuizEnv
  import opened Store

  /** The chapters the fixed accumulator table has entries for. */
  predicate KnownChapter(chapterId: int)
  {
    1 <= chapterId <= DefaultChapterCount
  }

  function RowCorrect(row: PerformanceRow, d: Difficulty): int
  {
    match d
    case Easy => row.easyCorrect
    case Medium => row.mediumCorrect
    case Hard => row.hardCorrect
  }

  function RowTotal(row: PerformanceRow, d: Difficulty): int
  {
    match d
    case Easy => row.easyTotal
    case Medium => row.mediumTotal
    case Hard => row.hardTotal
  }

  /** Correct answers of one cell, summed over every row of its chapter. */
  function CorrectSum(rows: seq<PerformanceRow>, chapter: int, d: Difficulty): int
  {
    if |rows| == 0 then 0
    else
      var own := if rows[0].chapterId == chapter then RowCorrect(rows[0], d) else 0;
      own + CorrectSum(rows[1..], chapter, d)
  }

  /** Answered questions of one cell, summed over every row of its chapter. */
  function TotalSum(rows: seq<PerformanceRow>, chapter: int, d: Difficulty): int
  {
    if |rows| == 0 then 0
    else
      var own := if rows[0].chapterId == chapter then RowTotal(rows[0], d) else 0;
      own + TotalSum(rows[1..], chapter, d)
  }

  function CellScore(rows: seq<PerformanceRow>, chapter: int, d: Difficulty): Fraction
  {
    Normalized(CorrectSum(rows, chapter, d), TotalSum(rows, chapter, d))
  }

  /** The entries of chapters 1..n, chapter-major, easy/medium/hard within. */
  function ScoresUpTo(rows: seq<PerformanceRow>, n: nat): (state: seq<Fraction>)
    ensures |state| == 3 * n
    ensures forall c, d | 1 <= c <= n :: state[Slot(c, d)] == CellScore(rows, c, d)
  {
    if n == 0 then []
    else
      var prefix := ScoresUpTo(rows, n - 1);
      var state := prefix + [CellScore(rows, n, Easy), CellScore(rows, n, Medium), CellScore(rows, n, Hard)];
      assert forall c, d | 1 <= c < n :: state[Slot(c, d)] == prefix[Slot(c, d)];
      state
  }

  /** `get_user_performance_state`: `None` is the `KeyError` a row of a chapter
      outside 1..6 raises; otherwise 18 entries, one per action, each the
      cell's correct-over-total quotient and 0 for a cell never answered. */
  function UserPerformanceState(rows: seq<PerformanceRow>): (r: Option<seq<Fraction>>)
    ensures r.None? <==> exists row | row in rows :: !KnownChapter(row.chapterId)
    ensures r.Some? ==> |r.value| == 3 * DefaultChapterCount
    ensures r.Some? ==> forall c, d | KnownChapter(c) ::
      r.value[Slot(c, d)] == CellScore(rows, c, d)
  {
    if exists row | row in rows :: !KnownChapter(row.chapterId) then None
    else Some(ScoresUpTo(rows, DefaultChapterCount))
  }

  /** Each entry is a quotient in [0, 1] when every row has its correct
      counts between 0 and its totals, and exactly 0 for a cell with no
      answered question. */
  lemma {:induction false} CellScoreBounds(rows: seq<PerformanceRow>, chapter: int, d: Difficulty)
    requires forall row | row in rows :: 0 <= RowCorrect(row, d) <= RowTotal(row, d)
    ensures TotalSum(rows, chapter, d) == 0 ==> CellScore(rows, chapter, d).num == 0
    ensures InUnitInterval(CellScore(rows, chapter, d))
  {
    SumsOrdered(rows, chapter, d);
  }

  lemma {:induction false} SumsOrdered(rows: seq<PerformanceRow>, chapter: int, d: Difficulty)
    requires forall row | row in rows :: 0 <= RowCorrect(row, d) <= RowTotal(row, d)
    ensures 0 <= CorrectSum(rows, chapter, d) <= TotalSum(rows, chapter, d)
    decreases |rows|
  {
    if |rows| > 0 {
      assert rows[0] in rows;
      assert forall row | row in rows[1..] :: row in rows;
      SumsOrdered(rows[1..], chapter, d);
    }
  }
}

=== FILE: quiz_env.dfy ===
/** The action codec and state-vector layout of the reinforcement-learning
    environment: an action names one (chapter, difficulty) cell of a grid of
    `chapterCount` chapters by three difficulties, chapter-major. */
module QuizEnv {
  import opened Maybe
  import opened Ratio

  datatype Difficulty = Easy | Medium | Hard

  /** The difficulty labels in the order the codec numbers them. */
  const DifficultyNames: seq<string> := ["easy", "medium", "hard"]

  const DefaultChapterCount: int := 6

  /** Position of a difficulty within its chapter's block of three actions. */
  function Rank(d: Difficulty): (k: nat)
    ensures k < 3
  {
    match d
    case Easy => 0
    case Medium => 1
    case Hard => 2
  }

  function DifficultyAt(k: nat): (d: Difficulty)
    requires k < 3
    ensures Rank(d) == k
  {
    if k == 0 then Easy else if k == 1 then Medium else Hard
  }

  function Name(d: Difficulty): (s: string)
    ensures s in DifficultyNames
  {
    DifficultyNames[Rank(d)]
  }

  /** The lookup in the codec's label-to-number table; `None` is the
      `KeyError` an unknown label raises. */
  function ParseDifficulty(s: string): (r: Option<Difficulty>)
    ensures r.Some? <==> s in DifficultyNames
    ensures r.Some? ==> Name(r.value) == s
  {
    if s == "easy" then Some(Easy)
    else if s == "medium" then Some(Medium)
    else if s == "hard" then Some(Hard)
    else None
  }

  lemma NameParses(d: Difficulty)
    ensures ParseDifficulty(Name(d)) == Some(d)
  {
  }

  /** The action number of a grid cell (chapters count from 1). */
  function Slot(chapter: int, d: Difficulty): (a: int)
    ensures 3 * (chapter - 1) <= a < 3 * chapter
  {
    (chapter - 1) * 3 + Rank(d)
  }

  /** An environment: its chapter count and the size of its action space. */
  datatype Env = Env(chapterCount: int, actionSpace: int)

  function NewEnv(chapterCount: int): (e: Env)
    ensures e.chapterCount == chapterCount
  {
    Env(chapterCount, chapterCount * 3)
  }

  /** Python's `action // 3 + 1` and `[...][action % 3]`: for a positive
      divisor floor division and Dafny's Euclidean division coincide, so no
      action, not even a negative one, is rejected. */
  function DecodeAction(action: int): (r: (int, string))
    ensures r.1 in DifficultyNames
    ensures 3 * (r.0 - 1) <= action < 3 * r.0
    ensures 0 <= action < 3 * DefaultChapterCount ==> 1 <= r.0 <= DefaultChapterCount
  {
    (action / 3 + 1, DifficultyNames[action % 3])
  }

  function EncodeAction(chapter: int, difficulty: string): (r: Option<int>)
    ensures r.Some? <==> difficulty in DifficultyNames
    ensures r.Some? ==> 3 * (chapter - 1) <= r.value < 3 * chapter
  {
    match ParseDifficulty(difficulty)
    case None => None
    case Some(d) => Some(Slot(chapter, d))
  }

  /** Decoding then encoding gives back every action. */
  lemma EncodeDecode(action: int)
    ensures EncodeAction(DecodeAction(action).0, DecodeAction(action).1) == Some(action)
  {
    var (c, s) := DecodeAction(action);
    var d := DifficultyAt(action % 3);
    assert s == Name(d);
    NameParses(d);
  }

  /** Encoding then decoding gives back every (chapter, known label) pair. */
  lemma DecodeEncode(chapter: int, difficulty: string)
    requires difficulty in DifficultyNames
    ensures EncodeAction(chapter, difficulty).Some?
    ensures DecodeAction(EncodeAction(chapter, difficulty).value) == (chapter, difficulty)
  {
    var d := ParseDifficulty(difficulty).value;
    var a := Slot(chapter, d);
    assert a / 3 == chapter - 1 && a % 3 == Rank(d);
  }

  /** Distinct cells get distinct actions. */
  lemma EncodeInjective(c1: int, d1: string, c2: int, d2: string)
    requires d1 in DifficultyNames && d2 in DifficultyNames
    requires EncodeAction(c1, d1) == EncodeAction(c2, d2)
    ensures c1 == c2 && d1 == d2
  {
    DecodeEncode(c1, d1);
    DecodeEncode(c2, d2);
  }

  /** A chapter's easy, medium and hard actions are three consecutive numbers. */
  lemma ChapterBlock(chapter: int)
    ensures EncodeAction(chapter, "medium") == Some(EncodeAction(chapter, "easy").value + 1)
    ensures EncodeAction(chapter, "hard") == Some(EncodeAction(chapter, "easy").value + 2)
  {
  }

  /** The action space is exactly the grid: an action is in range iff it
      decodes to a chapter of the environment, and every cell of the grid
      encodes into range. */
  lemma ActionSpaceIsGrid(chapterCount: int, action: int, chapter: int, difficulty: string)
    requires difficulty in DifficultyNames
    ensures var e := NewEnv(chapterCount);
      (0 <= action < e.actionSpace) <==> (1 <= DecodeAction(action).0 <= chapterCount)
    ensures var e := NewEnv(chapterCount);
      (0 <= EncodeAction(chapter, difficulty).value < e.actionSpace) <==> (1 <= chapter <= chapterCount)
  {
  }

  /** Per-chapter answer counts by difficulty. */
  datatype Counts = Counts(easy: int, medium: int, hard: int)

  const NoCounts := Counts(0, 0, 0)

  function CountOf(c: Counts, d: Difficulty): int
  {
    match d
    case Easy => c.easy
    case Medium => c.medium
    case Hard => c.hard
  }

  /** `performance.get(chapter, {...zeros})`. */
  function StatsOf(performance: map<int, Counts>, chapter: int): Counts
  {
    if chapter in performance then performance[chapter] else NoCounts
  }

  /** `sum(stats.values()) or 1`: a zero total becomes 1. */
  function Denominator(c: Counts): (t: int)
    ensures t != 0
  {
    var total := c.easy + c.medium + c.hard;
    if total == 0 then 1 else total
  }

  /** One entry of the state vector: the difficulty's share of the chapter. */
  function Share(c: Counts, d: Difficulty): (f: Fraction)
    ensures f.den != 0
  {
    Fraction(CountOf(c, d), Denominator(c))
  }

  /** The state vector for chapters 1..n: each chapter contributes its three
      shares at the action numbers of its cells, a chapter missing from the
      map counting as all zeros. */
  function GetState(chapterCount: int, performance: map<int, Counts>): (state: seq<Fraction>)
    ensures |state| == if chapterCount > 0 then 3 * chapterCount else 0
    ensures forall c, d | 1 <= c <= chapterCount ::
      state[Slot(c, d)] == Share(StatsOf(performance, c), d)
    decreases chapterCount
  {
    if chapterCount <= 0 then []
    else
      var stats := StatsOf(performance, chapterCount);
      var prefix := GetState(chapterCount - 1, performance);
      AppendChapter(prefix, stats, chapterCount);
      prefix + [Share(stats, Easy), Share(stats, Medium), Share(stats, Hard)]
  }

  /** Appending chapter `n`'s block keeps the earlier slots and fills its own. */
  lemma AppendChapter(prefix: seq<Fraction>, stats: Counts, n: int)
    requires n >= 1 && |prefix| == 3 * (n - 1)
    ensures var state := prefix + [Share(stats, Easy), Share(stats, Medium), Share(stats, Hard)];
      && (forall c, d | 1 <= c < n :: state[Slot(c, d)] == prefix[Slot(c, d)])
      && forall d :: state[Slot(n, d)] == Share(stats, d)
  {
    assert forall d :: Slot(n, d) == |prefix| + Rank(d);
  }

  /** A chapter with no recorded performance contributes three zeros, and a
      chapter with non-negative counts contributes shares in [0, 1]. */
  lemma StateEntryBounds(chapterCount: int, performance: map<int, Counts>, chapter: int, d: Difficulty)
    requires 1 <= chapter <= chapterCount
    ensures chapter !in performance ==> GetState(chapterCount, performance)[Slot(chapter, d)].num == 0
    ensures var c := StatsOf(performance, chapter);
      c.easy >= 0 && c.medium >= 0 && c.hard >= 0 ==>
        InUnitInterval(GetState(chapterCount, performance)[Slot(chapter, d)])
  {
  }

  /** The three shares of a chapter with a positive total add up to one. */
  lemma SharesSumToOne(c: Counts)
    requires c.easy + c.medium + c.hard > 0
    ensures Share(c, Easy).num + Share(c, Medium).num + Share(c, Hard).num == Share(c, Easy).den
    ensures Share(c, Easy).den == Share(c, Medium).den == Share(c, Hard).den
  {
  }
}

=== FILE: quiz_selector.dfy ===
/** Adaptive quiz generation: a bounded loop that asks for an action (the
    fixed target cell, or the agent's choice), skips actions already tried,
    and takes one not-yet-used question of the decoded (chapter, difficulty);
    then a fill step tops the quiz up from the rest of the bank.

    The agent, the shuffles and the database are parameters: `act(k)` is the
    agent's answer on attempt `k`, `shuffle(k, s)` is the order `random.shuffle`
    left `s` in (as a permutation of its indices; `k` is the attempt number,
    0 for the fill step), and `bank` is the question table in query order. */
module QuizSelector {
  import opened Maybe
  import opened QuizEnv
  import opened Store

  const MaxAttempts: nat := 100

  /** `p` reorders `n` items: it lists each index below `n` exactly once. */
  predicate IsIndexPermutation(p: seq<nat>, n: nat)
  {
    && |p| == n
    && (forall i | 0 <= i < n :: p[i] < n)
    && (forall i, j | 0 <= i < j < n :: p[i] != p[j])
    && (forall k | 0 <= k < n :: k in p)
  }

  function Permute(s: seq<Question>, p: seq<nat>): (r: seq<Question>)
    requires IsIndexPermutation(p, |s|)
    ensures |r| == |s|
    ensures forall i | 0 <= i < |r| :: r[i] == s[p[i]]
  {
    seq(|p|, i requires 0 <= i < |p| => s[p[i]])
  }

  /** Reordering loses nothing, adds nothing, and keeps keys distinct. */
  lemma PermuteSameMembers(s: seq<Question>, p: seq<nat>)
    requires IsIndexPermutation(p, |s|)
    ensures forall q :: q in Permute(s, p) <==> q in s
    ensures DistinctIds(s) ==> DistinctIds(Permute(s, p))
  {
    var r := Permute(s, p);
    forall q | q in s ensures q in r {
      var k :| 0 <= k < |s| && s[k] == q;
      assert k in p;
      var i :| 0 <= i < |p| && p[i] == k;
      assert r[i] == q;
    }
  }

  /** `Questions.query.filter_by(chapter_id=..., difficulty=...)`. */
  function Matching(bank: seq<Question>, chapter: int, difficulty: string): (r: seq<Question>)
    ensures forall q :: q in r <==> q in bank && q.chapterId == chapter && q.difficulty == difficulty
  {
    if |bank| == 0 then []
    else
      var init, q := bank[..|bank| - 1], bank[|bank| - 1];
      assert bank == init + [q];
      Matching(init, chapter, difficulty) + if q.chapterId == chapter && q.difficulty == difficulty then [q] else []
  }

  /** `[q for q in qs if q.id not in used]`. */
  function Unused(qs: seq<Question>, used: set<int>): (r: seq<Question>)
    ensures forall q :: q in r <==> q in qs && q.id !in used
  {
    if |qs| == 0 then []
    else
      var init, q := qs[..|qs| - 1], qs[|qs| - 1];
      assert qs == init + [q];
      Unused(init, used) + if q.id !in used then [q] else []
  }

  /** Filtering out the used keys removes exactly as many entries as there
      are used keys in a list without duplicate keys, and keeps the keys
      distinct. */
  lemma {:induction false} UnusedLength(qs: seq<Question>, used: set<int>)
    requires DistinctIds(qs)
    ensures DistinctIds(Unused(qs, used))
    ensures |Unused(qs, used)| + |used * Ids(qs)| == |qs|
    decreases |qs|
  {
    if |qs| > 0 {
      var init, q := qs[..|qs| - 1], qs[|qs| - 1];
      assert forall i | 0 <= i < |init| :: init[i] == qs[i];
      UnusedLength(init, used);
      IdsMembers(init);
      assert q.id !in Ids(init);
      IntersectAdd(used, q.id, Ids(init));
      var u := Unused(init, used);
      forall i | 0 <= i < |u| ensures u[i].id != q.id {
        assert u[i] in init;
      }
    }
  }

  lemma IntersectAdd(a: set<int>, x: int, b: set<int>)
    requires x !in b
    ensures x in a ==> |a * (b + {x})| == |a * b| + 1
    ensures x !in a ==> a * (b + {x}) == a * b
  {
    if x in a {
      assert a * (b + {x}) == a * b + {x};
    }
  }

  /** The scan `for q in available: if q.id not in used_ids: ... break`. */
  function FirstUnused(qs: seq<Question>, used: set<int>): (r: Option<Question>)
    ensures r.Some? ==> r.value in qs && r.value.id !in used
    ensures r.None? ==> forall q | q in qs :: q.id in used
  {
    if |qs| == 0 then None
    else if qs[0].id !in used then Some(qs[0])
    else FirstUnused(qs[1..], used)
  }

  /** One iteration's pick for `action`: the first question of the shuffled
      cell whose key is unused. It finds one exactly when the cell still has
      an unused question. */
  function Pick(bank: seq<Question>, action: int, used: set<int>, order: seq<nat>): (r: Option<Question>)
    requires IsIndexPermutation(order, |Matching(bank, DecodeAction(action).0, DecodeAction(action).1)|)
    ensures r.Some? ==>
      && r.value in bank && r.value.id !in used
      && (r.value.chapterId, r.value.difficulty) == DecodeAction(action)
    ensures r.None? <==> forall q | q in bank && (q.chapterId, q.difficulty) == DecodeAction(action) :: q.id in used
  {
    var (chapter, difficulty) := DecodeAction(action);
    var candidates := Matching(bank, chapter, difficulty);
    PermuteSameMembers(candidates, order);
    FirstUnused(Permute(candidates, order), used)
  }

  /** The targeted mode: both a target chapter and a target difficulty given. */
  predicate Targeted(targetChapter: Option<int>, targetDifficulty: Option<string>)
  {
    targetChapter.Some? && targetDifficulty.Some?
  }

  /** What the loop has picked so far: key-distinct bank questions whose
      keys are `usedIds`, each picked by a distinct tried action that
      decodes to its cell. */
  predicate Selected(
    bank: seq<Question>, questions: seq<Question>, pickActions: seq<int>, tried: set<int>, usedIds: set<int>)
  {
    && |pickActions| == |questions|
    && DistinctIds(questions)
    && usedIds == Ids(questions)
    && (forall q | q in questions :: q in bank)
    && (forall i | 0 <= i < |pickActions| ::
         pickActions[i] in tried && DecodeAction(pickActions[i]) == (questions[i].chapterId, questions[i].difficulty))
    && (forall i, j | 0 <= i < j < |pickActions| :: pickActions[i] != pickActions[j])
  }

  /** Picking an unused bank question with a newly tried action. */
  lemma SelectedStep(
    bank: seq<Question>, questions: seq<Question>, pickActions: seq<int>, tried: set<int>, usedIds: set<int>,
    q: Question, action: int)
    requires Selected(bank, questions, pickActions, tried, usedIds)
    requires action !in tried
    requires q in bank && q.id !in usedIds && (q.chapterId, q.difficulty) == DecodeAction(action)
    ensures Selected(bank, questions + [q], pickActions + [action], tried + {action}, usedIds + {q.id})
  {
    IdsMembers(questions);
    assert (questions + [q])[..|questions|] == questions;
  }

  /** Trying one more action that picks nothing. */
  lemma SelectedMore(
    bank: seq<Question>, questions: seq<Question>, pickActions: seq<int>, tried: set<int>, usedIds: set<int>,
    action: int)
    requires Selected(bank, questions, pickActions, tried, usedIds)
    ensures Selected(bank, questions, pickActions, tried + {action}, usedIds)
  {
  }

  /** Each of `actions` is one the agent answered in one of the first
      `attempts` iterations. */
  predicate AgentActions(actions: seq<int>, act: nat -> int, attempts: nat)
  {
    forall i | 0 <= i < |actions| :: exists k | 1 <= k <= attempts :: actions[i] == act(k)
  }

  /** One more iteration keeps every earlier answer of the agent, and adds
      the answer of the new one. */
  lemma AgentActionsStep(actions: seq<int>, act: nat -> int, n: nat)
    requires AgentActions(actions, act, n)
    ensures AgentActions(actions, act, n + 1)
    ensures AgentActions(actions + [act(n + 1)], act, n + 1)
  {
  }


  /** The selection loop of `generate_adaptive_quiz`. In targeted mode every
      iteration tries the one `target` action (None: the target difficulty
      has no action, and encoding it raises); otherwise iteration `k` tries
      `act(k)`. Besides the picked questions it reports how many iterations
      ran and the action that picked each question. */
  method SelectionLoop(
    bank: seq<Question>, targeted: bool, target: Option<int>, numQuestions: int,
    act: nat -> int, shuffle: (nat, seq<Question>) -> seq<nat>)
    returns (raised: bool, questions: seq<Question>, attempts: nat, pickActions: seq<int>)
    requires forall k: nat, s: seq<Question> :: IsIndexPermutation(shuffle(k, s), |s|)
    ensures raised <==> targeted && target.None? && numQuestions > 0
    ensures !raised ==> attempts <= MaxAttempts
    ensures !raised && |questions| < numQuestions ==> attempts == MaxAttempts
    ensures !raised ==> |questions| <= if numQuestions > 0 then numQuestions else 0
    ensures !raised ==> DistinctIds(questions) && forall q | q in questions :: q in bank
    ensures !raised ==> |pickActions| == |questions|
    ensures !raised ==> forall i | 0 <= i < |pickActions| ::
      DecodeAction(pickActions[i]) == (questions[i].chapterId, questions[i].difficulty)
    ensures !raised ==> forall i, j | 0 <= i < j < |pickActions| :: pickActions[i] != pickActions[j]
    ensures !raised && targeted ==> |pickActions| <= 1
    ensures !raised && targeted ==> forall i | 0 <= i < |pickActions| :: pickActions[i] == target.value
    ensures !raised && !targeted ==> AgentActions(pickActions, act, attempts)
  {
    raised := false;
    questions := [];
    pickActions := [];
    attempts := 0;
    var selectedActions: set<int> := {};
    var usedIds: set<int> := {};

    while |questions| < numQuestions && attempts < MaxAttempts
      invariant attempts <= MaxAttempts
      invariant attempts > 0 ==> numQuestions > 0
      invariant |questions| <= if numQuestions > 0 then numQuestions else 0
      invariant |pickActions| == |questions| <= attempts
      invariant Selected(bank, questions, pickActions, selectedActions, usedIds)
      invariant targeted && target.Some? ==> selectedActions <= {target.value}
      invariant targeted && target.None? ==> attempts == 0
      invariant targeted ==> |pickActions| <= 1
      invariant !targeted ==> AgentActions(pickActions, act, attempts)
    {
      attempts := attempts + 1;
      var action: int;
      if targeted {
        if target.None? {
          raised := true;
          return;
        }
        action := target.value;
      } else {
        action := act(attempts);
        AgentActionsStep(pickActions, act, attempts - 1);
      }
      if action in selectedActions {
        continue;
      }
      var (chapter, difficulty) := DecodeAction(action);
      var pick := Pick(bank, action, usedIds, shuffle(attempts, Matching(bank, chapter, difficulty)));
      if pick.Some? {
        var q := pick.value;
        SelectedStep(bank, questions, pickActions, selectedActions, usedIds, q, action);
        questions := questions + [q];
        pickActions := pickActions + [action];
        usedIds := usedIds + {q.id};
      } else {
        SelectedMore(bank, questions, pickActions, selectedActions, usedIds, action);
      }
      selectedActions := selectedActions + {action};
    }

  }

  /** `generate_adaptive_quiz`: the selection loop, then the fill step.
      `raised` is the `KeyError` of encoding an unknown target difficulty. */
  method GenerateAdaptiveQuiz(
    bank: seq<Question>,
    targetChapter: Option<int>, targetDifficulty: Option<string>,
    numQuestions: int,
    act: nat -> int,
    shuffle: (nat, seq<Question>) -> seq<nat>)
    returns (raised: bool, questions: seq<Question>, attempts: nat, pickActions: seq<int>)
    requires DistinctIds(bank)
    requires forall k: nat, s: seq<Question> :: IsIndexPermutation(shuffle(k, s), |s|)
    ensures raised <==>
      Targeted(targetChapter, targetDifficulty) && numQuestions > 0
      && targetDifficulty.value !in DifficultyNames
    ensures !raised ==> attempts <= MaxAttempts
    ensures !raised ==> DistinctIds(questions)
    ensures !raised ==> forall q | q in questions :: q in bank
    ensures !raised ==> |questions| <= if numQuestions > 0 then numQuestions else 0
    ensures !raised && numQuestions <= |bank| ==> |questions| == if numQuestions > 0 then numQuestions else 0
    // The questions the loop picked come first: each has the cell its
    // action decodes to, and no action picked twice.
    ensures !raised ==> |pickActions| <= |questions|
    ensures !raised ==> forall i | 0 <= i < |pickActions| ::
      DecodeAction(pickActions[i]) == (questions[i].chapterId, questions[i].difficulty)
    ensures !raised ==> forall i, j | 0 <= i < j < |pickActions| :: pickActions[i] != pickActions[j]
    ensures !raised && Targeted(targetChapter, targetDifficulty) ==> |pickActions| <= 1
    // A targeted quiz draws its loop question from the target cell; an
    // adaptive one draws each from the cell of one of the agent's answers.
    ensures !raised && Targeted(targetChapter, targetDifficulty) ==> forall i | 0 <= i < |pickActions| ::
      questions[i].chapterId == targetChapter.value && questions[i].difficulty == targetDifficulty.value
    ensures !raised && !Targeted(targetChapter, targetDifficulty) ==> AgentActions(pickActions, act, attempts)
  {
    var targeted := Targeted(targetChapter, targetDifficulty);
    var target := if targeted then EncodeAction(targetChapter.value, targetDifficulty.value) else None;
    raised, questions, attempts, pickActions := SelectionLoop(bank, targeted, target, numQuestions, act, shuffle);
    if !raised && targeted && |pickActions| > 0 {
      DecodeEncode(targetChapter.value, targetDifficulty.value);
      assert forall i | 0 <= i < |pickActions| ::
        questions[i].chapterId == targetChapter.value && questions[i].difficulty == targetDifficulty.value;
    }
    if !raised && |questions| < numQuestions {
      var picked := questions;
      var remaining := Unused(bank, Ids(picked));
      questions := TopUp(bank, picked, numQuestions, shuffle(0, remaining));
      assert forall i | 0 <= i < |pickActions| :: questions[i] == questions[..|picked|][i] == picked[i];
    }
  }

  /** The fill step: the picked questions followed by as many of the
      shuffled unused bank entries as are still wanted (Python's slice
      `remaining[:k]` stops at the end of the list). */
  function TopUp(bank: seq<Question>, picked: seq<Question>, numQuestions: int, order: seq<nat>): (r: seq<Question>)
    requires DistinctIds(bank) && DistinctIds(picked)
    requires forall q | q in picked :: q in bank
    requires |picked| < numQuestions
    requires IsIndexPermutation(order, |Unused(bank, Ids(picked))|)
    ensures |picked| <= |r| && r[..|picked|] == picked
    ensures DistinctIds(r)
    ensures forall q | q in r :: q in bank
    ensures |r| <= numQuestions
    ensures numQuestions <= |bank| ==> |r| == numQuestions
  {
    var used := Ids(picked);
    var remaining := Unused(bank, used);
    var shuffled := Permute(remaining, order);
    UnusedLength(bank, used);
    PermuteSameMembers(remaining, order);
    IdsCard(picked);
    CardIntersect(used, Ids(bank));
    IdsMembers(picked);
    var taken := if numQuestions - |picked| <= |shuffled| then shuffled[..numQuestions - |picked|] else shuffled;
    Concat(picked, taken);
    picked + taken
  }

  /** Two key-distinct lists whose keys do not meet concatenate to a
      key-distinct list. */
  lemma Concat(a: seq<Question>, b: seq<Question>)
    requires DistinctIds(a) && DistinctIds(b)
    requires forall i, j | 0 <= i < |a| && 0 <= j < |b| :: a[i].id != b[j].id
    ensures DistinctIds(a + b) && (a + b)[..|a|] == a
  {
    var c := a + b;
    assert c[..|a|] == a;
    forall i, j | 0 <= i < j < |c| ensures c[i].id != c[j].id {
      if j < |a| {
        assert c[i] == a[i] && c[j] == a[j];
      } else if i < |a| {
        assert c[i] == a[i] && c[j] == b[j - |a|];
      } else {
        assert c[i] == b[i - |a|] && c[j] == b[j - |a|];
      }
    }
  }

  lemma CardIntersect(a: set<int>, b: set<int>)
    ensures |a * b| <= |a|
  {
    assert a == (a * b) + (a - b);
    assert (a * b) * (a - b) == {};
  }
}

=== FILE: quiz_session.dfy ===
/** The quiz-taking page as a state machine. The page's state is one
    `Session` value; every handler, timer tick and server reply is a
    `Command`; a step yields the next session and the effects the page
    causes outside itself (an alert, the submission request, a route
    change). The countdown display `formatTime` is here as well. */
module QuizSession {
  import opened Maybe
  import opened Decimal

  /** A question as the page receives it; only its id and option texts matter here. */
  datatype QuizQuestion = QuizQuestion(id: int, options: seq<string>)

  /** The page's state hooks. `duration` and `timeLeft` are None while they
      are `null`; `flagged[q]` may be absent, which reads as not flagged.
      `navigated` records that the page has left for the history route, after
      which it is unmounted and nothing on it happens any more. */
  datatype Session = Session(
    questions: seq<QuizQuestion>,
    currentIndex: int,
    answers: map<int, string>,
    flagged: map<int, bool>,
    loading: bool,
    submitting: bool,
    error: string,
    duration: Option<int>,
    timeLeft: Option<int>,
    navigated: bool)

  /** The body of the submission request. */
  datatype Payload = Payload(answers: map<int, string>, timeTaken: int)

  datatype Effect = Alert(message: string) | Post(payload: Payload) | Navigate(path: string)

  datatype Outcome = Outcome(session: Session, effects: seq<Effect>)

  datatype Command =
    | Loaded(questions: seq<QuizQuestion>, duration: Option<int>)
    | LoadFailed
    | ChooseOption(qId: int, option: string)
    | Next
    | Prev
    | Jump(index: int)
    | ToggleFlag(qId: int)
    | Tick
    | Submit
    | SubmitSucceeded
    | SubmitFailed

  const LoadError: string := "Failed to load quiz. Please try again."
  const SubmitError: string := "Failed to submit quiz. Please try again."
  const IncompleteMessage: string := "Please answer all questions before submitting."
  const SuccessMessage: string := "Quiz submitted successfully!"
  const HistoryRoute: string := "/quiz-history"

  /** The state before the quiz has arrived. */
  const Initial: Session := Session([], 0, map[], map[], true, false, "", None, None, false)

  function Max(a: int, b: int): int
  {
    if a >= b then a else b
  }

  /** The ids of a question list. */
  function QuestionIds(qs: seq<QuizQuestion>): set<int>
  {
    if |qs| == 0 then {} else QuestionIds(qs[..|qs| - 1]) + {qs[|qs| - 1].id}
  }

  predicate DistinctIds(qs: seq<QuizQuestion>)
  {
    forall i, j | 0 <= i < j < |qs| :: qs[i].id != qs[j].id
  }

  lemma {:induction false} QuestionIdsMembers(qs: seq<QuizQuestion>)
    ensures forall i | 0 <= i < |qs| :: qs[i].id in QuestionIds(qs)
    ensures forall x | x in QuestionIds(qs) :: exists i :: 0 <= i < |qs| && qs[i].id == x
    decreases |qs|
  {
    if |qs| > 0 {
      var init := qs[..|qs| - 1];
      QuestionIdsMembers(init);
      assert forall i | 0 <= i < |init| :: init[i] == qs[i];
    }
  }

  lemma {:induction false} QuestionIdsCard(qs: seq<QuizQuestion>)
    requires DistinctIds(qs)
    ensures |QuestionIds(qs)| == |qs|
    decreases |qs|
  {
    if |qs| > 0 {
      var init := qs[..|qs| - 1];
      QuestionIdsCard(init);
      QuestionIdsMembers(init);
      assert qs[|qs| - 1].id !in QuestionIds(init);
    }
  }

  /** `flagged[q]` is truthy: the question is marked for review. */
  predicate IsFlagged(s: Session, qId: int)
  {
    qId in s.flagged && s.flagged[qId]
  }

  /** `Object.keys(answers).length === questions.length`. */
  predicate AllAnswered(s: Session)
  {
    |s.answers.Keys| == |s.questions|
  }

  /** `duration - timeLeft`, where JavaScript reads `null` as 0. */
  function TimeTaken(s: Session): int
  {
    s.duration.GetOr(0) - s.timeLeft.GetOr(0)
  }

  /** The quiz arrived: its questions, and a countdown starting at its duration. */
  function Load(s: Session, questions: seq<QuizQuestion>, duration: Option<int>): (r: Session)
    ensures r.questions == questions && r.duration == duration && r.timeLeft == duration && !r.loading
    ensures r.answers == s.answers && r.currentIndex == s.currentIndex && r.submitting == s.submitting
  {
    s.(questions := questions, duration := duration, timeLeft := duration, loading := false)
  }

  /** The quiz could not be fetched. */
  function LoadFail(s: Session): (r: Session)
    ensures r.error == LoadError && !r.loading
    ensures r.questions == s.questions && r.answers == s.answers && r.timeLeft == s.timeLeft
  {
    s.(error := LoadError, loading := false)
  }

  /** Choosing an option records it as the question's answer and touches no
      other answer. */
  function OptionChange(s: Session, qId: int, option: string): (r: Session)
    ensures r.answers.Keys == s.answers.Keys + {qId} && r.answers[qId] == option
    ensures forall k | k in s.answers && k != qId :: r.answers[k] == s.answers[k]
    ensures r.(answers := s.answers) == s
  {
    s.(answers := s.answers[qId := option])
  }

  /** Flipping a flag negates its truthiness and touches no other flag. */
  function FlipFlag(s: Session, qId: int): (r: Session)
    ensures IsFlagged(r, qId) == !IsFlagged(s, qId)
    ensures forall k | k != qId :: IsFlagged(r, k) == IsFlagged(s, k)
    ensures r.(flagged := s.flagged) == s
  {
    s.(flagged := s.flagged[qId := !IsFlagged(s, qId)])
  }

  /** "Next" moves one question forward unless on the last one. */
  function GoNext(s: Session): Session
  {
    if s.currentIndex < |s.questions| - 1 then s.(currentIndex := s.currentIndex + 1) else s
  }

  /** "Previous" moves one question back unless on the first one. */
  function GoPrev(s: Session): Session
  {
    if s.currentIndex > 0 then s.(currentIndex := s.currentIndex - 1) else s
  }

  /** A nav-bar button: the index is taken as given. */
  function JumpTo(s: Session, index: int): Session
  {
    s.(currentIndex := index)
  }

  /** `handleSubmit`: ignored while a submission is in flight, refused with an
      alert while some question is unanswered, otherwise the request goes out
      with the answers and the time used. */
  function HandleSubmit(s: Session): (o: Outcome)
    ensures o.session.questions == s.questions && o.session.answers == s.answers
    ensures o.session.timeLeft == s.timeLeft && o.session.duration == s.duration
    ensures o.session.currentIndex == s.currentIndex && o.session.error == s.error
    ensures o.session.submitting == (s.submitting || AllAnswered(s))
    ensures |o.effects| <= 1
    ensures forall i | 0 <= i < |o.effects| :: o.effects[i].Post? <==> !s.submitting && AllAnswered(s)
    ensures forall i | 0 <= i < |o.effects| :: o.effects[i].Post? ==> o.effects[i].payload == Payload(s.answers, TimeTaken(s))
    ensures !s.submitting ==> |o.effects| == 1
  {
    if s.submitting then Outcome(s, [])
    else if !AllAnswered(s) then Outcome(s, [Alert(IncompleteMessage)])
    else Outcome(s.(submitting := true), [Post(Payload(s.answers, TimeTaken(s)))])
  }

  /** One second of the countdown. At one second or less it submits, on the
      state the tick found, and stops at zero. */
  function TimerTick(s: Session): (o: Outcome)
    ensures s.timeLeft.None? ==> o == Outcome(s, [])
    ensures s.timeLeft.Some? ==> o.session.timeLeft == Some(Max(0, s.timeLeft.value - 1))
    ensures o.session.questions == s.questions && o.session.answers == s.answers && o.session.duration == s.duration
    ensures o.session.currentIndex == s.currentIndex && o.session.error == s.error
    ensures o.session.submitting == (s.submitting || (s.timeLeft.Some? && s.timeLeft.value <= 1 && AllAnswered(s)))
    ensures forall i | 0 <= i < |o.effects| :: o.effects[i].Post? ==>
      && s.timeLeft.Some? && s.timeLeft.value <= 1
      && !s.submitting && AllAnswered(s)
      && o.effects[i].payload == Payload(s.answers, TimeTaken(s))
  {
    match s.timeLeft
    case None => Outcome(s, [])
    case Some(prev) =>
      if prev <= 1 then
        var o := HandleSubmit(s);
        Outcome(o.session.(timeLeft := Some(0)), o.effects)
      else
        Outcome(s.(timeLeft := Some(prev - 1)), [])
  }

  /** The server accepted the submission: an alert, then the history page,
      which unmounts this one. */
  function SubmitResolved(s: Session): Outcome
  {
    Outcome(s.(navigated := true), [Alert(SuccessMessage), Navigate(HistoryRoute)])
  }

  /** The submission failed: the error is shown and submitting is allowed again. */
  function SubmitRejected(s: Session): (r: Session)
    ensures r.error == SubmitError && !r.submitting
    ensures r.questions == s.questions && r.answers == s.answers && r.timeLeft == s.timeLeft
  {
    s.(error := SubmitError, submitting := false)
  }

  function Step(s: Session, c: Command): Outcome
  {
    match c
    case Loaded(qs, d) => Outcome(Load(s, qs, d), [])
    case LoadFailed => Outcome(LoadFail(s), [])
    case ChooseOption(q, opt) => Outcome(OptionChange(s, q, opt), [])
    case Next => Outcome(GoNext(s), [])
    case Prev => Outcome(GoPrev(s), [])
    case Jump(i) => Outcome(JumpTo(s, i), [])
    case ToggleFlag(q) => Outcome(FlipFlag(s, q), [])
    case Tick => TimerTick(s)
    case Submit => HandleSubmit(s)
    case SubmitSucceeded => SubmitResolved(s)
    case SubmitFailed => Outcome(SubmitRejected(s), [])
  }

  /** A sequence of commands, effects collected in order. */
  function Run(s: Session, cmds: seq<Command>): Outcome
    decreases |cmds|
  {
    if |cmds| == 0 then Outcome(s, [])
    else
      var first := Step(s, cmds[0]);
      var rest := Run(first.session, cmds[1..]);
      Outcome(rest.session, first.effects + rest.effects)
  }

  function Ticks(n: nat): (cmds: seq<Command>)
    ensures |cmds| == n && forall i | 0 <= i < n :: cmds[i] == Tick
  {
    seq(n, i => Tick)
  }

  predicate NoPost(es: seq<Effect>)
  {
    forall i | 0 <= i < |es| :: !es[i].Post?
  }

  /** The question screen is rendered: the quiz has arrived, no error is
      shown, and the current index names a question. Only then do the
      option, flag, navigation and submit controls exist. */
  predicate OnQuestionScreen(s: Session)
  {
    !s.loading && s.error == "" && 0 <= s.currentIndex < |s.questions|
  }

  /** What the page lets happen in a state: the quiz arrives (with distinct
      question ids and a non-negative duration) or fails to arrive only while
      loading; the controls act only on the question screen, where an option
      and the flag belong to the current question, "Previous" is disabled on
      the first question, "Next" shows before the last and "Submit" on the
      last (disabled while submitting), and the nav-bar has one button per
      question; the interval ticks while the countdown is positive and the
      page is rendered, which an empty question list prevents (its render
      throws); a server reply only answers a request in flight. Once the
      page has navigated away, nothing is enabled. */
  predicate Enabled(s: Session, c: Command)
  {
    !s.navigated &&
    match c
    case Loaded(qs, d) => s.loading && DistinctIds(qs) && (d.Some? ==> d.value >= 0)
    case LoadFailed => s.loading
    case ChooseOption(q, opt) =>
      OnQuestionScreen(s) && q == s.questions[s.currentIndex].id && opt in s.questions[s.currentIndex].options
    case ToggleFlag(q) => OnQuestionScreen(s) && q == s.questions[s.currentIndex].id
    case Next => OnQuestionScreen(s) && s.currentIndex < |s.questions| - 1
    case Prev => OnQuestionScreen(s) && s.currentIndex > 0
    case Jump(i) => OnQuestionScreen(s) && 0 <= i < |s.questions|
    case Submit => OnQuestionScreen(s) && s.currentIndex == |s.questions| - 1 && !s.submitting
    case Tick => s.timeLeft.Some? && s.timeLeft.value > 0 && |s.questions| > 0
    case SubmitSucceeded => s.submitting
    case SubmitFailed => s.submitting
  }

  predicate Admissible(s: Session, cmds: seq<Command>)
    decreases |cmds|
  {
    |cmds| == 0 || (Enabled(s, cmds[0]) && Admissible(Step(s, cmds[0]).session, cmds[1..]))
  }

  /** What holds of every reachable session: nothing is known while loading,
      the question ids are distinct, only shown questions have answers or
      flags, the current index points at a question, and the countdown lies between
      zero and the duration. */
  predicate Inv(s: Session)
  {
    && (s.loading ==> |s.questions| == 0 && !s.submitting)
    && DistinctIds(s.questions)
    && s.answers.Keys <= QuestionIds(s.questions)
    && s.flagged.Keys <= QuestionIds(s.questions)
    && (if |s.questions| == 0 then s.currentIndex == 0 else 0 <= s.currentIndex < |s.questions|)
    && s.duration.Some? == s.timeLeft.Some?
    && (s.timeLeft.Some? ==> 0 <= s.timeLeft.value <= s.duration.value)
  }

  lemma InitialInv()
    ensures Inv(Initial)
  {
  }

  /** Every enabled command keeps the invariant. */
  lemma StepKeepsInv(s: Session, c: Command)
    requires Inv(s) && Enabled(s, c)
    ensures Inv(Step(s, c).session)
  {
    match c
    case Loaded(qs, d) =>
      assert s.answers.Keys == {} && s.flagged.Keys == {};
    case ChooseOption(q, _) =>
      QuestionIdsMembers(s.questions);
    case ToggleFlag(q) =>
      QuestionIdsMembers(s.questions);
    case _ =>
  }

  /** Every admissible run keeps the invariant. */
  lemma {:induction false} RunKeepsInv(s: Session, cmds: seq<Command>)
    requires Inv(s) && Admissible(s, cmds)
    ensures Inv(Run(s, cmds).session)
    decreases |cmds|
  {
    if |cmds| > 0 {
      StepKeepsInv(s, cmds[0]);
      RunKeepsInv(Step(s, cmds[0]).session, cmds[1..]);
    }
  }

  /** Counting answer keys is the same as asking every question to be
      answered, because only shown questions are answered and ids are
      distinct. */
  lemma AllAnsweredIffEveryQuestion(s: Session)
    requires Inv(s)
    ensures AllAnswered(s) <==> forall i | 0 <= i < |s.questions| :: s.questions[i].id in s.answers
  {
    KeysCoverIffCount(s.questions, s.answers.Keys);
  }

  /** A set of keys drawn from distinct question ids has as many members as
      there are questions exactly when it holds every question's id. */
  lemma KeysCoverIffCount(qs: seq<QuizQuestion>, keys: set<int>)
    requires DistinctIds(qs) && keys <= QuestionIds(qs)
    ensures |keys| == |qs| <==> forall i | 0 <= i < |qs| :: qs[i].id in keys
  {
    var ids := QuestionIds(qs);
    QuestionIdsCard(qs);
    QuestionIdsMembers(qs);
    var rest := ids - keys;
    assert ids == keys + rest;
    assert keys * rest == {};
    assert |ids| == |keys| + |rest|;
    if forall i | 0 <= i < |qs| :: qs[i].id in keys {
      forall x | x in ids ensures x in keys {
        var i :| 0 <= i < |qs| && qs[i].id == x;
      }
      assert rest == {};
    }
    if |keys| == |qs| {
      assert |rest| == 0;
    }
  }

  /** The recorded time lies between zero and the duration. */
  lemma TimeTakenInRange(s: Session)
    requires Inv(s)
    ensures s.duration.Some? ==> 0 <= TimeTaken(s) <= s.duration.value
    ensures s.duration.None? ==> TimeTaken(s) == 0
  {
  }

  /** Whatever command causes a request, from a reachable session its time
      lies between zero and the duration and its answers cover exactly the
      questions. */
  lemma PostedPayloadSound(s: Session, c: Command)
    requires Inv(s)
    ensures forall i | 0 <= i < |Step(s, c).effects| :: Step(s, c).effects[i].Post? ==>
      var p := Step(s, c).effects[i].payload;
      && 0 <= p.timeTaken
      && (s.duration.Some? ==> p.timeTaken <= s.duration.value)
      && forall j | 0 <= j < |s.questions| :: s.questions[j].id in p.answers
  {
    TimeTakenInRange(s);
    AllAnsweredIffEveryQuestion(s);
  }

  /** The last choice for a question is its answer. */
  lemma LastWriteWins(s: Session, qId: int, a: string, b: string)
    ensures OptionChange(OptionChange(s, qId, a), qId, b) == OptionChange(s, qId, b)
  {
  }

  /** Choices for different questions do not interfere. */
  lemma ChoicesCommute(s: Session, q1: int, a: string, q2: int, b: string)
    requires q1 != q2
    ensures OptionChange(OptionChange(s, q1, a), q2, b) == OptionChange(OptionChange(s, q2, b), q1, a)
  {
  }

  /** Flagging twice restores every question's flag as the page reads it. */
  lemma FlagTwiceRestores(s: Session, qId: int, k: int)
    ensures IsFlagged(FlipFlag(FlipFlag(s, qId), qId), k) == IsFlagged(s, k)
  {
  }

  /** "Next" and "Previous" keep the index on a question: away from the
      boundary each moves by exactly one, at the boundary it stays put, and
      nothing but the index changes. */
  lemma NavigationStaysInRange(s: Session)
    requires 0 <= s.currentIndex < |s.questions|
    ensures 0 <= GoNext(s).currentIndex < |s.questions| && 0 <= GoPrev(s).currentIndex < |s.questions|
    ensures GoNext(s).currentIndex == if s.currentIndex == |s.questions| - 1 then s.currentIndex else s.currentIndex + 1
    ensures GoPrev(s).currentIndex == if s.currentIndex == 0 then 0 else s.currentIndex - 1
    ensures GoNext(s).(currentIndex := s.currentIndex) == s && GoPrev(s).(currentIndex := s.currentIndex) == s
  {
  }

  /** A nav-bar jump takes any index it is given: jumping to 99 in a
      three-question quiz leaves the index off the list. */
  lemma JumpTakesAnyIndex(s: Session)
    requires |s.questions| == 3
    ensures JumpTo(s, 99).currentIndex == 99 && !Inv(JumpTo(s, 99))
  {
  }

  /** "Previous" undoes "Next" whenever "Next" moved. */
  lemma PrevUndoesNext(s: Session)
    requires s.currentIndex < |s.questions| - 1
    requires 0 <= s.currentIndex
    ensures GoPrev(GoNext(s)) == s
  {
  }

  /** `n` ticks count down by `n` seconds but never below zero, leaving the
      questions and answers alone. */
  lemma {:induction false} TicksCountDown(s: Session, n: nat)
    requires s.timeLeft.Some? && s.timeLeft.value >= 0
    ensures Run(s, Ticks(n)).session.timeLeft == Some(Max(0, s.timeLeft.value - n))
    ensures Run(s, Ticks(n)).session.questions == s.questions
    ensures Run(s, Ticks(n)).session.answers == s.answers
    decreases n
  {
    if n > 0 {
      var next := TimerTick(s).session;
      assert Ticks(n)[1..] == Ticks(n - 1);
      assert Run(s, Ticks(n)).session == Run(next, Ticks(n - 1)).session;
      TicksCountDown(next, n - 1);
      assert next.timeLeft == Some(Max(0, s.timeLeft.value - 1));
    }
  }

  /** While some question is unanswered the timer never submits, however
      many times it fires: every effect is the incomplete-answers alert. */
  lemma {:induction false} TicksNeverPostIncomplete(s: Session, n: nat)
    requires !AllAnswered(s)
    ensures forall i | 0 <= i < |Run(s, Ticks(n)).effects| :: Run(s, Ticks(n)).effects[i] == Alert(IncompleteMessage)
    ensures Run(s, Ticks(n)).session.submitting == s.submitting
    decreases n
  {
    if n > 0 {
      var first := TimerTick(s);
      assert Ticks(n)[1..] == Ticks(n - 1);
      TicksNeverPostIncomplete(first.session, n - 1);
      assert forall i | 0 <= i < |first.effects| :: first.effects[i] == Alert(IncompleteMessage);
    }
  }

  /** While a submission is in flight, a further submission does nothing. */
  lemma SubmitIgnoredWhileInFlight(s: Session)
    requires s.submitting
    ensures Step(s, Submit) == Outcome(s, [])
    ensures Step(s, Tick).effects == []
  {
  }

  /** Until the server reports a failure, no second request goes out, whatever
      the user or the timer does. */
  lemma {:induction false} NoSecondPost(s: Session, cmds: seq<Command>)
    requires s.submitting
    requires forall i | 0 <= i < |cmds| :: cmds[i] != SubmitFailed
    ensures NoPost(Run(s, cmds).effects)
    ensures Run(s, cmds).session.submitting
    decreases |cmds|
  {
    if |cmds| > 0 {
      var first := Step(s, cmds[0]);
      assert first.session.submitting && NoPost(first.effects);
      NoSecondPost(first.session, cmds[1..]);
    }
  }

  /** A quiz that arrives with no questions halts the page: rendering its
      first question throws, so no control, timer or reply follows. */
  lemma EmptyQuizHalts(s: Session, d: Option<int>)
    requires Inv(s) && Enabled(s, Loaded([], d))
    ensures forall c :: !Enabled(Step(s, Loaded([], d)).session, c)
  {
  }

  /** 1 while a request is out and its reply can still arrive, else 0. */
  function InFlight(s: Session): nat
  {
    if s.submitting && !s.navigated then 1 else 0
  }

  /** The number of requests among some effects. */
  function PostCount(es: seq<Effect>): nat
  {
    if |es| == 0 then 0 else (if es[0].Post? then 1 else 0) + PostCount(es[1..])
  }

  /** The number of server replies among some commands. */
  function ReplyCount(cmds: seq<Command>): nat
  {
    if |cmds| == 0 then 0
    else (if cmds[0].SubmitSucceeded? || cmds[0].SubmitFailed? then 1 else 0) + ReplyCount(cmds[1..])
  }

  lemma {:induction false} PostCountAppend(a: seq<Effect>, b: seq<Effect>)
    ensures PostCount(a + b) == PostCount(a) + PostCount(b)
    decreases |a|
  {
    if |a| > 0 {
      assert (a + b)[1..] == a[1..] + b;
      PostCountAppend(a[1..], b);
    } else {
      assert a + b == b;
    }
  }

  /** One enabled step: a request it sends becomes the one in flight, and a
      reply it delivers answers the one in flight. */
  lemma StepAccountsReplies(s: Session, c: Command)
    requires Enabled(s, c)
    ensures InFlight(s) + PostCount(Step(s, c).effects)
      == (if c.SubmitSucceeded? || c.SubmitFailed? then 1 else 0) + InFlight(Step(s, c).session)
  {
    var o := Step(s, c);
    assert |o.effects| <= 2;
    if |o.effects| > 0 {
      assert PostCount(o.effects[1..]) == 0;
    }
  }

  /** Requests and replies pair off along every admissible run: the requests
      sent, plus the one in flight at the start, equal the replies received,
      plus the one in flight at the end. So every reply answers a request,
      and no request is answered twice. */
  lemma {:induction false} EachRequestOneReply(s: Session, cmds: seq<Command>)
    requires Admissible(s, cmds)
    ensures InFlight(s) + PostCount(Run(s, cmds).effects) == ReplyCount(cmds) + InFlight(Run(s, cmds).session)
    ensures ReplyCount(cmds) <= InFlight(s) + PostCount(Run(s, cmds).effects)
    decreases |cmds|
  {
    if |cmds| > 0 {
      var first := Step(s, cmds[0]);
      StepAccountsReplies(s, cmds[0]);
      EachRequestOneReply(first.session, cmds[1..]);
      PostCountAppend(first.effects, Run(first.session, cmds[1..]).effects);
    }
  }

  /** With every question answered and nothing in flight, `t` ticks from a
      countdown at `t` are all the interval's to give, the first `t - 1`
      only count down, and the last sends the answers with the time measured
      at one second left. */
  lemma {:induction false} TicksToExpiry(s: Session, t: nat)
    requires s.timeLeft == Some(t) && t >= 1 && s.duration.Some?
    requires !s.submitting && AllAnswered(s) && !s.navigated && |s.questions| > 0
    ensures Admissible(s, Ticks(t))
    ensures Run(s, Ticks(t)).effects == [Post(Payload(s.answers, s.duration.value - 1))]
    ensures Run(s, Ticks(t)).session.submitting && Run(s, Ticks(t)).session.timeLeft == Some(0)
    decreases t
  {
    assert Ticks(t)[1..] == Ticks(t - 1);
    if t > 1 {
      var next := TimerTick(s).session;
      assert next == s.(timeLeft := Some(t - 1));
      TicksToExpiry(next, t - 1);
    } else {
      assert Run(TimerTick(s).session, Ticks(0)) == Outcome(TimerTick(s).session, []);
    }
  }

  /** After a failed button submission the page shows only the error: no
      control is left and the timer is the one thing still running. The
      answers are intact, and when the countdown runs out the timer sends
      them again, with the time measured at one second left. */
  lemma RetryAfterFailure(s: Session)
    requires Inv(s) && Enabled(s, Submit) && AllAnswered(s)
    requires s.timeLeft.Some? && s.timeLeft.value >= 1
    ensures var failed := SubmitRejected(HandleSubmit(s).session);
      && failed.answers == s.answers
      && failed.error == SubmitError
      && (forall c | Enabled(failed, c) :: c == Tick)
      && Admissible(failed, Ticks(s.timeLeft.value))
      && Run(failed, Ticks(s.timeLeft.value)).effects == [Post(Payload(s.answers, s.duration.value - 1))]
  {
    var failed := SubmitRejected(HandleSubmit(s).session);
    TicksToExpiry(failed, s.timeLeft.value);
  }

  /** After a failed timer submission nothing can happen any more: the
      countdown is at zero, so the interval has stopped, and the error screen
      has no controls. The answers are never sent again. */
  lemma NothingAfterTimerFailure(s: Session)
    requires !s.loading && s.timeLeft == Some(1) && !s.submitting && AllAnswered(s)
    ensures TimerTick(s).effects == [Post(Payload(s.answers, TimeTaken(s)))]
    ensures forall c :: !Enabled(SubmitRejected(TimerTick(s).session), c)
  {
  }

  /** When the countdown runs out with a question unanswered, the timer's
      submission is refused like the button's: only the alert, no request,
      and the countdown rests at zero. */
  lemma TimerExpiryChecksCompleteness(s: Session)
    requires s.timeLeft.Some? && s.timeLeft.value <= 1
    requires !s.submitting && !AllAnswered(s)
    ensures TimerTick(s) == Outcome(s.(timeLeft := Some(0)), [Alert(IncompleteMessage)])
    ensures TimerTick(s).session.(timeLeft := s.timeLeft) == Step(s, Submit).session
  {
  }

  /** When the countdown runs out with every question answered, the request
      carries the time measured on the tick that found one second left. */
  lemma TimerExpiryPayload(s: Session)
    requires s.timeLeft == Some(1) && s.duration.Some?
    requires !s.submitting && AllAnswered(s)
    ensures TimerTick(s).effects == [Post(Payload(s.answers, s.duration.value - 1))]
    ensures TimerTick(s).session.submitting && TimerTick(s).session.timeLeft == Some(0)
  {
  }

  /** Three questions, one answered, five seconds: the countdown reaches zero
      after five ticks, the fifth and sixth ticks only alert, and nothing is
      sent. */
  lemma ThreeQuestionsFiveSeconds()
    ensures var qs := [QuizQuestion(1, ["A", "B"]), QuizQuestion(2, ["A", "B"]), QuizQuestion(3, ["A", "B"])];
      var s := Session(qs, 0, map[1 := "A"], map[], false, false, "", Some(5), Some(5), false);
      var o := Run(s, Ticks(6));
      && o.session.timeLeft == Some(0)
      && !o.session.submitting
      && NoPost(o.effects)
  {
    var qs := [QuizQuestion(1, ["A", "B"]), QuizQuestion(2, ["A", "B"]), QuizQuestion(3, ["A", "B"])];
    var s := Session(qs, 0, map[1 := "A"], map[], false, false, "", Some(5), Some(5), false);
    assert s.answers.Keys == {1};
    assert !AllAnswered(s);
    TicksCountDown(s, 6);
    TicksNeverPostIncomplete(s, 6);
  }

  /** JavaScript's `a % b` for a positive `b`: the remainder takes the sign of `a`. */
  function JsRem(a: int, b: int): int
    requires b > 0
  {
    if a >= 0 then a % b else -((-a) % b)
  }

  /** `formatTime`: minutes and seconds, each padded to two digits; `null`
      shows "00:00". */
  function FormatTime(seconds: Option<int>): string
  {
    match seconds
    case None => "00:00"
    case Some(t) =>
      PadStart(IntToString(t / 60), 2, '0') + ":" + PadStart(IntToString(JsRem(t, 60)), 2, '0')
  }

  /** A number below 100, padded to two digits, reads back as itself. */
  lemma TwoDigits(n: nat)
    requires n < 100
    ensures var p := PadStart(NatToString(n), 2, '0');
      |p| == 2 && AllDigits(p) && DigitsValue(p) == n
  {
    NatToStringRoundTrip(n);
    PadZerosValue(NatToString(n), 2);
  }

  /** Below 100 minutes the display is "MM:SS": two digit groups that read
      back as the minutes and the seconds of the input. */
  lemma FormatTimeReadsBack(t: int)
    requires 0 <= t < 6000
    ensures var r := FormatTime(Some(t));
      && |r| == 5 && r[2] == ':'
      && AllDigits(r[..2]) && AllDigits(r[3..])
      && DigitsValue(r[3..]) < 60
      && 60 * DigitsValue(r[..2]) + DigitsValue(r[3..]) == t
  {
    var mm, ss := PadStart(NatToString(t / 60), 2, '0'), PadStart(NatToString(t % 60), 2, '0');
    FormatTimeParts(t);
    TwoDigits(t / 60);
    TwoDigits(t % 60);
    ColonSplit(mm, ss);
  }

  /** For a non-negative count the two groups are the padded quotient and
      remainder by 60. */
  lemma FormatTimeParts(t: int)
    requires t >= 0
    ensures FormatTime(Some(t)) == PadStart(NatToString(t / 60), 2, '0') + ":" + PadStart(NatToString(t % 60), 2, '0')
  {
    var a, b := IntToString(t / 60), IntToString(JsRem(t, 60));
    assert FormatTime(Some(t)) == PadStart(a, 2, '0') + ":" + PadStart(b, 2, '0');
    assert a == NatToString(t / 60);
    assert JsRem(t, 60) == t % 60;
    assert b == NatToString(t % 60);
  }

  /** Two groups joined by a colon are found again on either side of it. */
  lemma ColonSplit(a: string, b: string)
    requires |a| == 2
    ensures var r := a + ":" + b;
      |r| == 3 + |b| && r[2] == ':' && r[..2] == a && r[3..] == b
  {
  }

  /** From 100 minutes on the minutes take three digits or more. */
  lemma FormatTimeLong(t: int)
    requires t >= 6000
    ensures |FormatTime(Some(t))| >= 6
  {
  }

  /** A negative count shows both parts negative, since `%` keeps the sign. */
  lemma FormatTimeNegative()
    ensures FormatTime(Some(-5)) == "-1:-5"
  {
    assert -5 / 60 == -1 && JsRem(-5, 60) == -5;
    assert NatToString(1) == "1" && NatToString(5) == "5";
    assert IntToString(-1) == "-1" && IntToString(-5) == "-5";
    assert PadStart("-1", 2, '0') == "-1" && PadStart("-5", 2, '0') == "-5";
  }
}

=== FILE: ratio.dfy ===
/** Quotients kept exact. The source computes these as floating-point
    divisions; the model records numerator and denominator, so "the entry is
    0", "the entry lies in [0, 1]" and "the shares add up to 1" are exact
    statements about the division the source performs. */
module Ratio {

  datatype Fraction = Fraction(num: int, den: int)

  /** The quotient lies in [0, 1]. */
  predicate InUnitInterval(f: Fraction)
  {
    f.den > 0 && 0 <= f.num <= f.den
  }

  /** `correct / total if total > 0 else 0.0`. */
  function Normalized(correct: int, total: int): (f: Fraction)
    ensures f.den > 0
    ensures total <= 0 ==> f.num == 0
    ensures total > 0 ==> f == Fraction(correct, total)
  {
    if total > 0 then Fraction(correct, total) else Fraction(0, 1)
  }
}

=== FILE: store.dfy ===
/** In-memory stand-ins for the database rows the backend reads: a question
    bank entry, a per-chapter performance row and a recorded quiz attempt. */
module Store {
  import opened Maybe

  /** A question as stored: its primary key, chapter, difficulty label and
      the text of the correct option. */
  datatype Question = Question(id: int, chapterId: int, difficulty: string, correctAnswer: string)

  /** One performance row: correct and total counts per difficulty for one
      chapter of one attempt. */
  datatype PerformanceRow = PerformanceRow(
    chapterId: int,
    easyCorrect: int, mediumCorrect: int, hardCorrect: int,
    easyTotal: int, mediumTotal: int, hardTotal: int)

  /** A recorded attempt as the dashboard reads it: the calendar day of its
      timestamp (days since an epoch) and the seconds it took (absent when
      the client sent none). */
  datatype Attempt = Attempt(day: int, timeTaken: Option<int>)

  /** No two entries share a primary key. */
  predicate DistinctIds(qs: seq<Question>)
  {
    forall i, j | 0 <= i < j < |qs| :: qs[i].id != qs[j].id
  }

  /** The primary keys of a list of questions. */
  function Ids(qs: seq<Question>): set<int>
  {
    if |qs| == 0 then {} else Ids(qs[..|qs| - 1]) + {qs[|qs| - 1].id}
  }

  lemma {:induction false} IdsMembers(qs: seq<Question>)
    ensures forall i | 0 <= i < |qs| :: qs[i].id in Ids(qs)
    ensures forall x | x in Ids(qs) :: exists i | 0 <= i < |qs| :: qs[i].id == x
    decreases |qs|
  {
    if |qs| > 0 {
      var init := qs[..|qs| - 1];
      IdsMembers(init);
      assert forall i | 0 <= i < |init| :: init[i] == qs[i];
    }
  }

  lemma {:induction false} IdsCard(qs: seq<Question>)
    ensures |Ids(qs)| <= |qs|
    decreases |qs|
  {
    if |qs| > 0 {
      IdsCard(qs[..|qs| - 1]);
    }
  }
}

=== FILE: submission.dfy ===
/** The grading and aggregation loops of the quiz-submission endpoint.
    The posted answers are the JSON object's items in order (question id,
    chosen option text; keys distinct); the question table is a map from
    primary key to row. */
module Submission {
  import opened Maybe
  import opened Ratio
  import opened QuizEnv
  import opened Store

  type Answer = (int, string)

  predicate Known(a: Answer, db: map<int, Question>)
  {
    a.0 in db
  }

  predicate Correct(a: Answer, db: map<int, Question>)
  {
    a.0 in db && db[a.0].correctAnswer == a.1
  }

  predicate InBucket(a: Answer, db: map<int, Question>, chapter: int, difficulty: string)
  {
    a.0 in db && db[a.0].chapterId == chapter && db[a.0].difficulty == difficulty
  }

  /** A correct answer whose question carries a label outside easy/medium/hard:
      incrementing its chapter's counter raises `KeyError`. */
  predicate Raises(a: Answer, db: map<int, Question>)
  {
    Correct(a, db) && db[a.0].difficulty !in DifficultyNames
  }

  /** Answers to existing questions of one (chapter, difficulty) bucket. */
  function BucketTotal(answers: seq<Answer>, db: map<int, Question>, chapter: int, difficulty: string): nat
  {
    if |answers| == 0 then 0
    else
      var last := answers[|answers| - 1];
      BucketTotal(answers[..|answers| - 1], db, chapter, difficulty)
        + if InBucket(last, db, chapter, difficulty) then 1 else 0
  }

  /** The correct ones among them. */
  function BucketCorrect(answers: seq<Answer>, db: map<int, Question>, chapter: int, difficulty: string): nat
  {
    if |answers| == 0 then 0
    else
      var last := answers[|answers| - 1];
      BucketCorrect(answers[..|answers| - 1], db, chapter, difficulty)
        + if InBucket(last, db, chapter, difficulty) && Correct(last, db) then 1 else 0
  }

  /** Chapters of the answered questions that exist. */
  function Touched(answers: seq<Answer>, db: map<int, Question>): set<int>
  {
    if |answers| == 0 then {}
    else
      var last := answers[|answers| - 1];
      Touched(answers[..|answers| - 1], db) + if Known(last, db) then {db[last.0].chapterId} else {}
  }

  /** A chapter no existing question was answered for has empty buckets. */
  lemma {:induction false} UntouchedIsEmpty(answers: seq<Answer>, db: map<int, Question>, chapter: int, difficulty: string)
    requires chapter !in Touched(answers, db)
    ensures BucketTotal(answers, db, chapter, difficulty) == 0
    ensures BucketCorrect(answers, db, chapter, difficulty) == 0
    decreases |answers|
  {
    if |answers| > 0 {
      UntouchedIsEmpty(answers[..|answers| - 1], db, chapter, difficulty);
    }
  }

  function CountOr0(counts: map<(int, string), int>, key: (int, string)): int
  {
    if key in counts then counts[key] else 0
  }

  function Bump(c: Counts, d: Difficulty): (r: Counts)
    ensures CountOf(r, d) == CountOf(c, d) + 1
    ensures forall e | e != d :: CountOf(r, e) == CountOf(c, e)
  {
    match d
    case Easy => c.(easy := c.easy + 1)
    case Medium => c.(medium := c.medium + 1)
    case Hard => c.(hard := c.hard + 1)
  }

  /** The tables after the answers in `prefix`: one per-chapter entry for
      each chapter answered, with the correct answers per difficulty, and the
      number of answers per (chapter, difficulty) bucket. */
  ghost predicate Aggregated(
    prefix: seq<Answer>, db: map<int, Question>,
    performance: map<int, Counts>, difficultyCount: map<(int, string), int>)
  {
    && performance.Keys == Touched(prefix, db)
    && (forall ch, d | ch in performance :: CountOf(performance[ch], d) == BucketCorrect(prefix, db, ch, Name(d)))
    && (forall ch, d :: CountOr0(difficultyCount, (ch, d)) == BucketTotal(prefix, db, ch, d))
  }

  /** One iteration on the per-chapter table (answers that raise excluded). */
  function StepPerformance(performance: map<int, Counts>, a: Answer, db: map<int, Question>): map<int, Counts>
    requires !Raises(a, db)
  {
    if !Known(a, db) then performance
    else
      var q := db[a.0];
      var base := if q.chapterId in performance then performance else performance[q.chapterId := NoCounts];
      if Correct(a, db) then base[q.chapterId := Bump(base[q.chapterId], ParseDifficulty(q.difficulty).value)]
      else base
  }

  /** One iteration on the bucket counter. */
  function StepCount(difficultyCount: map<(int, string), int>, a: Answer, db: map<int, Question>): map<(int, string), int>
  {
    if !Known(a, db) then difficultyCount
    else
      var key := (db[a.0].chapterId, db[a.0].difficulty);
      difficultyCount[key := CountOr0(difficultyCount, key) + 1]
  }

  /** An iteration that does not raise keeps the tables exact. */
  lemma StepKeepsAggregated(
    prefix: seq<Answer>, a: Answer, db: map<int, Question>,
    performance: map<int, Counts>, difficultyCount: map<(int, string), int>)
    requires Aggregated(prefix, db, performance, difficultyCount)
    requires !Raises(a, db)
    ensures Aggregated(prefix + [a], db, StepPerformance(performance, a, db), StepCount(difficultyCount, a, db))
  {
    var next := prefix + [a];
    assert next[..|prefix|] == prefix;
    StepKeepsPerformance(prefix, a, db, performance);
  }

  lemma StepKeepsPerformance(prefix: seq<Answer>, a: Answer, db: map<int, Question>, performance: map<int, Counts>)
    requires performance.Keys == Touched(prefix, db)
    requires forall ch, d | ch in performance :: CountOf(performance[ch], d) == BucketCorrect(prefix, db, ch, Name(d))
    requires !Raises(a, db)
    ensures var p, next := StepPerformance(performance, a, db), prefix + [a];
      && p.Keys == Touched(next, db)
      && forall ch, d | ch in p :: CountOf(p[ch], d) == BucketCorrect(next, db, ch, Name(d))
  {
    var next := prefix + [a];
    assert next[..|prefix|] == prefix;
    if Known(a, db) {
      var ch := db[a.0].chapterId;
      if ch !in performance {
        forall d: Difficulty ensures BucketCorrect(prefix, db, ch, Name(d)) == 0 {
          UntouchedIsEmpty(prefix, db, ch, Name(d));
        }
      }
    }
  }

  /** The loop over the answers: per chapter, correct answers by difficulty;
      per (chapter, difficulty), all answers. Answers to missing questions
      are skipped. */
  method AggregateAnswers(answers: seq<Answer>, db: map<int, Question>)
    returns (raised: bool, performance: map<int, Counts>, difficultyCount: map<(int, string), int>)
    ensures raised <==> exists i | 0 <= i < |answers| :: Raises(answers[i], db)
    ensures !raised ==> performance.Keys == Touched(answers, db)
    ensures !raised ==> forall ch, d | ch in performance ::
      CountOf(performance[ch], d) == BucketCorrect(answers, db, ch, Name(d))
    ensures !raised ==> forall ch, d ::
      CountOr0(difficultyCount, (ch, d)) == BucketTotal(answers, db, ch, d)
  {
    raised := false;
    performance := map[];
    difficultyCount := map[];
    var i := 0;
    while i < |answers|
      invariant 0 <= i <= |answers|
      invariant forall j | 0 <= j < i :: !Raises(answers[j], db)
      invariant Aggregated(answers[..i], db, performance, difficultyCount)
    {
      if Raises(answers[i], db) {
        raised := true;
        return;
      }
      assert answers[..i + 1] == answers[..i] + [answers[i]];
      StepKeepsAggregated(answers[..i], answers[i], db, performance, difficultyCount);
      performance := StepPerformance(performance, answers[i], db);
      difficultyCount := StepCount(difficultyCount, answers[i], db);
      i := i + 1;
    }
    assert answers[..i] == answers;
  }

  /** The performance rows written after the loop: one per touched chapter,
      correct counts from the per-chapter table and totals from the bucket
      counter (0 for a bucket never seen). */
  function PerformanceRows(performance: map<int, Counts>, difficultyCount: map<(int, string), int>): map<int, PerformanceRow>
  {
    map ch | ch in performance ::
      PerformanceRow(ch,
        performance[ch].easy, performance[ch].medium, performance[ch].hard,
        CountOr0(difficultyCount, (ch, "easy")),
        CountOr0(difficultyCount, (ch, "medium")),
        CountOr0(difficultyCount, (ch, "hard")))
  }

  lemma {:induction false} CorrectWithinTotal(answers: seq<Answer>, db: map<int, Question>, chapter: int, difficulty: string)
    ensures BucketCorrect(answers, db, chapter, difficulty) <= BucketTotal(answers, db, chapter, difficulty)
    decreases |answers|
  {
    if |answers| > 0 {
      CorrectWithinTotal(answers[..|answers| - 1], db, chapter, difficulty);
    }
  }

  /** The submission's performance rows: one per chapter answered, each
      bucket's correct count and number of answers as counted over the
      answers, the correct count never above the number of answers. */
  method SubmitPerformance(answers: seq<Answer>, db: map<int, Question>)
    returns (raised: bool, rows: map<int, PerformanceRow>)
    ensures raised <==> exists i | 0 <= i < |answers| :: Raises(answers[i], db)
    ensures !raised ==> rows.Keys == Touched(answers, db)
    ensures !raised ==> forall ch | ch in rows ::
      && rows[ch].chapterId == ch
      && 0 <= rows[ch].easyCorrect <= rows[ch].easyTotal == BucketTotal(answers, db, ch, "easy")
      && 0 <= rows[ch].mediumCorrect <= rows[ch].mediumTotal == BucketTotal(answers, db, ch, "medium")
      && 0 <= rows[ch].hardCorrect <= rows[ch].hardTotal == BucketTotal(answers, db, ch, "hard")
    ensures !raised ==> forall ch | ch in rows ::
      && rows[ch].easyCorrect == BucketCorrect(answers, db, ch, "easy")
      && rows[ch].mediumCorrect == BucketCorrect(answers, db, ch, "medium")
      && rows[ch].hardCorrect == BucketCorrect(answers, db, ch, "hard")
  {
    var performance, difficultyCount;
    raised, performance, difficultyCount := AggregateAnswers(answers, db);
    rows := PerformanceRows(performance, difficultyCount);
    if !raised {
      forall ch | ch in rows
        ensures rows[ch].chapterId == ch
        ensures 0 <= rows[ch].easyCorrect <= rows[ch].easyTotal
        ensures 0 <= rows[ch].mediumCorrect <= rows[ch].mediumTotal
        ensures 0 <= rows[ch].hardCorrect <= rows[ch].hardTotal
        ensures rows[ch].easyTotal == BucketTotal(answers, db, ch, "easy")
        ensures rows[ch].mediumTotal == BucketTotal(answers, db, ch, "medium")
        ensures rows[ch].hardTotal == BucketTotal(answers, db, ch, "hard")
        ensures rows[ch].easyCorrect == BucketCorrect(answers, db, ch, "easy")
        ensures rows[ch].mediumCorrect == BucketCorrect(answers, db, ch, "medium")
        ensures rows[ch].hardCorrect == BucketCorrect(answers, db, ch, "hard")
      {
        assert CountOf(performance[ch], Easy) == BucketCorrect(answers, db, ch, Name(Easy));
        assert CountOf(performance[ch], Medium) == BucketCorrect(answers, db, ch, Name(Medium));
        assert CountOf(performance[ch], Hard) == BucketCorrect(answers, db, ch, Name(Hard));
        CorrectWithinTotal(answers, db, ch, "easy");
        CorrectWithinTotal(answers, db, ch, "medium");
        CorrectWithinTotal(answers, db, ch, "hard");
      }
    }
  }

  /** Answers whose question exists and whose text matches its correct option. */
  function CorrectCount(answers: seq<Answer>, db: map<int, Question>): (r: nat)
    ensures r <= |answers|
    ensures r == |answers| ==> forall i | 0 <= i < |answers| :: Correct(answers[i], db)
  {
    if |answers| == 0 then 0
    else
      var init := answers[..|answers| - 1];
      var r := CorrectCount(init, db) + if Correct(answers[|answers| - 1], db) then 1 else 0;
      assert r == |answers| ==> CorrectCount(init, db) == |init|;
      assert forall i | 0 <= i < |init| :: answers[i] == init[i];
      r
  }

  /** The generator summed on the grading line, as written: the answers are
      visited in order, each one's question is fetched and its correct option
      read without checking that the question exists, so the first answer to
      a missing question aborts the sum (None); otherwise each match adds 1. */
  function CorrectSumAsWritten(answers: seq<Answer>, db: map<int, Question>): (r: Option<nat>)
    ensures r.None? <==> exists i | 0 <= i < |answers| :: !Known(answers[i], db)
    ensures r.Some? ==> r.value == CorrectCount(answers, db)
    decreases |answers|
  {
    if |answers| == 0 then Some(0)
    else
      var init, last := answers[..|answers| - 1], answers[|answers| - 1];
      assert forall i | 0 <= i < |init| :: init[i] == answers[i];
      match CorrectSumAsWritten(init, db)
      case None => None
      case Some(c) =>
        if !Known(last, db) then None
        else Some(c + if db[last.0].correctAnswer == last.1 then 1 else 0)
  }

  /** The score as written: the sum above over the number of answers, 0 for
      no answers; it fails exactly when some answer's question is missing. */
  function ScoreAsWritten(answers: seq<Answer>, db: map<int, Question>): (r: Option<Fraction>)
    ensures r.None? <==> exists i | 0 <= i < |answers| :: !Known(answers[i], db)
    ensures r.Some? ==> r.value == Normalized(CorrectCount(answers, db), |answers|)
  {
    match CorrectSumAsWritten(answers, db)
    case None => None
    case Some(c) => Some(Normalized(c, |answers|))
  }

  /** An answer to a question that does not exist makes the grading abort,
      although the aggregation loop right after it skips such answers. */
  lemma ScoreAbortsOnMissingQuestion()
    ensures ScoreAsWritten([(7, "A")], map[]) == None
    ensures !Raises((7, "A"), map[]) && Touched([(7, "A")], map[]) == {}
  {
    assert !Known([(7, "A")][0], map[]);
  }

  /** The score with an answer to a missing question counted as wrong: it
      stays in the denominator and, as in the aggregation loop, is never
      counted as correct. This score never fails, agrees with the score as
      written whenever that one succeeds, and is a quotient in [0, 1]. */
  function Score(answers: seq<Answer>, db: map<int, Question>): (f: Fraction)
    ensures InUnitInterval(f)
    ensures |answers| > 0 ==> f == Fraction(CorrectCount(answers, db), |answers|)
    ensures |answers| == 0 ==> f.num == 0
    ensures ScoreAsWritten(answers, db).Some? ==> ScoreAsWritten(answers, db) == Some(f)
  {
    Normalized(CorrectCount(answers, db), |answers|)
  }
}
